=== FILE: README.md ===
# Chat and upload backend, modelled in Dafny

This project models the sequential logic of a small Java backend for a
video-sharing chat app. The Java code serves it over sockets and servlets.
Four parts are modelled:

- **ChatServer**: a line-based chat server. It handles `REGISTER:user:pass`
  lines with length validators, JSON LOGIN / MSG / PING messages, and
  per-user offline queues. The user table is loaded over three built-in
  accounts.
- **RobustChatServer**: the later server.
  - A strict first-line handshake: `REGISTER:` auto-logs in, and LOGIN
    rejects empty names.
  - The same chat routing, plus PUBLISH_VIDEO and GET_VIDEOS.
  - Three hand-written text formats: `users.txt`, the offline-message
    JSON written at shutdown, and `video_list.json`, which is read back by
    a brace-depth splitter.
- **UploadServlet**: the Jakarta upload servlet. One request draws one
  id. File items named `video` and `cover` become `<id>.mp4` under
  `videos` and `<id>.jpg` under `covers`. The JSON body reports success
  exactly when a video came.
- **UploadServletJava11**: the javax upload servlet. The first file item
  is stored as `<id>.mp4` and answered at once.

Every handler is a pure function from the state and one input line to the
new state and the lines sent (`Send(connection, line)`). The message loops
of a connection are methods over the list of lines it sends.

The Java `extractValue` is the regular expression `"key"\s*:\s*"?([^",}]+)"?`
run with `find()`. It is modelled as a scanner (`JsonScan`) that does what
the backtracking matcher does at each start position. The JSON the Java
code writes by hand (ACK lines, the `VIDEO_LIST` reply, the upload
bodies) is modelled as an `Object` of `Member`s, quoted or bare. Its text
is exactly the Java string. `JsonScan.ObjectField` states once for all
such objects when `extractValue` reads a member back. The Java library
calls the code relies on are written out as functions:

- `String.split` with a limit;
- `String.trim`;
- `Character.isWhitespace`;
- `BufferedReader.readLine`;
- `PrintWriter.println`, whose line separator (`\n`, or `\r\n` on Windows) is a parameter.

Modules:

- `Wrappers`: `Option`.
- `Strings`: the Java string functions listed above.
- `JsonScan`: `extractValue`.
- `Protocol`: connections and the ACK line.
- `UserTable`: the `users.txt` format and the two loaders.
- `OfflineStore`: the offline message queues and their writer.
- `VideoStore`: the video list, its file format and the `VIDEO_LIST` reply.
- `ChatServer`, `RobustChatServer`: the two chat servers.
- `UploadForm`: what the two upload servlets share.
- `UploadServlet`, `UploadServletJava11`: the two servlets.

## Model

| member | source | states |
|---|---|---|
| Strings.SplitLimit | ChatServer.java:177 | `split(":", 3)` yields 1 to 3 parts. Joined back with the separator they give the input. Only the last part may hold a separator, and only when the limit was reached. |
| Strings.SplitAtFirst | RobustChatServer.java:96-98 | `split(":", 2)` finds no colon exactly when the line has none. Otherwise it cuts the line at its first colon. |
| Strings.Trim | RobustChatServer.java:687 | `trim()` leaves no trimmable character at either end. The result is empty exactly when every character was trimmable. |
| Strings.ReadLines | RobustChatServer.java:95 | `readLine` never returns a line holding a line break. A non-empty text yields at least one line. |
| Strings.ReadWriteLines | RobustChatServer.java:113-121 | Lines written with `println` read back with `readLine` as the same lines, whether the line separator is `\n` or `\r\n`, provided none holds a line break. |
| JsonScan.ExtractValue | RobustChatServer.java:193-201 | `extractValue` returns "" exactly when the pattern matches at no position. Otherwise it returns a non-empty value with no `"`, `,` or `}`. |
| JsonScan.FindFrom | RobustChatServer.java:197-200 | The leftmost-match search returns nothing exactly when no match starts at or after the position. |
| JsonScan.ExtractQuoted | RobustChatServer.java:194 | A quoted field `"key":"v"` reads back as exactly `v`, when `v` is non-empty and holds no quote, comma or closing brace, and no match of the pattern starts in the text before the field. |
| JsonScan.ExtractBare | RobustChatServer.java:194 | A bare field such as `"url":null` reads back as its value, when the value is non-empty, holds no quote, comma or closing brace, does not start with a quote or a `\s` character, and is followed by a quote, comma or closing brace; the text before the field must hold no match, as for `ExtractQuoted`. |
| JsonScan.ObjectField | RobustChatServer.java:193-201 | In any hand-written one-line object, `extractValue` finds a member's value under its key when: the member's key and value are non-empty and hold no quote, comma or closing brace; the key does not start with a colon; a bare value does not start with a `\s` character; and every earlier member has a non-empty key, holds no quote, comma or closing brace in its key or value, has a non-empty value when the value is quoted, and has neither its key nor (when quoted) its value starting with the key's first letter. |
| JsonScan.ObjectOneLine | ChatServer.java:304-307 | A hand-written object is one line when none of its keys or values holds a line break. |
| Protocol.SendAll | ChatServer.java:291-299 | Queued lines go to the connection one by one, unchanged and in order. RobustChatServer's `deliverOfflineMessages` (RobustChatServer.java:302-318) does the same. |
| Protocol.AckIsReadable | RobustChatServer.java:423-442 | With `extractValue`, every ACK line's `type` reads back as `ACK` and its `code` as the code. Its `msg` reads back as the message when the message is non-empty and has no quote, comma or brace. |
| Protocol.AckIsOneLine | ChatServer.java:304-307 | An ACK line is a single line whenever its message is. |
| OfflineStore.AddMessage | RobustChatServer.java:515-518 | `addMessage` puts the line at the end of that user's queue. Every other queue is unchanged, and no empty queue is ever created. |
| OfflineStore.GetAndClear | RobustChatServer.java:523-526 | `getAndClear` returns the user's queue, or nothing when there is none. It removes that entry only. |
| OfflineStore.GetAndClearTwice | RobustChatServer.java:523-526 | A second `getAndClear` returns nothing and changes nothing. |
| OfflineStore.AddAllThenGet | RobustChatServer.java:515-526 | Lines added one after the other come back from `getAndClear` in the order added, after those already queued. Other users' queues are untouched. |
| OfflineStore.EscapeQuotes | RobustChatServer.java:623 | After escaping, every double quote in the text stands right after a backslash. |
| OfflineStore.EscapeIsLossless | RobustChatServer.java:623 | The writer's quote escaping can be undone: every message is recoverable from its escaped form. |
| OfflineStore.SaveJson | RobustChatServer.java:601-640 | The offline file is framed by `{` plus a line break, and by a line break plus `}`. |
| UserTable.EntryLines | RobustChatServer.java:116-117 | The saver writes one `name:password` line per user, in iteration order. |
| UserTable.SaveUsersReadsBack | RobustChatServer.java:113-122 | `users.txt` read back line by line holds exactly one `name:password` line per user, in iteration order, when no name or password holds a line break. |
| UserTable.LoadLines | RobustChatServer.java:95-101 | Loading lines only ever adds or overwrites entries. |
| UserTable.LoadRobust | RobustChatServer.java:80-89 | A missing user file yields exactly the three default accounts. |
| UserTable.LoadChat | ChatServer.java:84-89 | ChatServer always keeps the three default accounts. A missing file leaves exactly those. |
| UserTable.LoadAppend | RobustChatServer.java:95-101 | The load loop over two runs of lines is the load of the second run over the result of the first. |
| UserTable.LoadSkipsLineWithoutColon | RobustChatServer.java:96-97 | A line without a colon, anywhere in the file, changes nothing: the table is as if the line were not there. |
| UserTable.PasswordMayHoldColons | RobustChatServer.java:96-98 | A line is cut at its first colon only, so a stored password may contain colons. |
| UserTable.LoadEntryLines | RobustChatServer.java:95-101 | Loading saved lines lays exactly the saved entries over the starting table. |
| UserTable.SplitOfEntry | RobustChatServer.java:96 | A saved line of a colon-free name splits back into that name and password. |
| UserTable.SaveLoadOver | RobustChatServer.java:80-121 | Loading the saved file over any starting table lays exactly the saved entries over it, in any iteration order. |
| UserTable.SaveLoadRoundTrip | RobustChatServer.java:80-121 | Save then load gives back the same table, in any iteration order, for names without colons and entries without line breaks. |
| UserTable.SaveLoadOverDefaults | ChatServer.java:69-107 | ChatServer reading a saved table ends with the saved entries laid over the three defaults. |
| VideoStore.AddVideo | RobustChatServer.java:662-665 | `addVideo` appends exactly one video at the end and keeps the earlier ones. |
| VideoStore.SkipSeparators | RobustChatServer.java:714-718 | Skipping after an object drops exactly the leading run of commas and whitespace: every dropped character is a separator, and the result starts with a character that is not one. |
| VideoStore.LoadVideos | RobustChatServer.java:677-730 | Loading appends to the list and never clears it. A missing file adds nothing. |
| VideoStore.NothingToLoad | RobustChatServer.java:687-697 | Blank content, `[]`, or content without outer brackets adds no video. |
| VideoStore.SplitObject | RobustChatServer.java:703-719 | The splitter returns a well-formed object exactly as written, then continues after the separators. |
| VideoStore.SplitJoined | RobustChatServer.java:699-720 | Well-formed objects joined by commas and whitespace are split back into the same list. |
| VideoStore.SaveLoadRoundTrip | RobustChatServer.java:677-756 | Loading the saved video file appends exactly the saved videos, in order, when each video is well formed. |
| VideoStore.VideoArrayReadsBack | RobustChatServer.java:405-411 | The `videos` array of a `VIDEO_LIST` reply lists the videos in store order. |
| VideoStore.VideoListReplyType | RobustChatServer.java:406 | The `VIDEO_LIST` reply's `type` reads back as `VIDEO_LIST`. |
| ChatServer.Start | ChatServer.java:32-45 | At start nobody is online and nothing is queued. The three default accounts are always in the table, and they are the whole table when there is no user file. What a present user file yields is stated by `ChatServer.UsersSurviveRestart`. |
| ChatServer.UsersSurviveRestart | ChatServer.java:69-107 | The user file written by `saveUsersToFile` is read back at the next start as the saved accounts laid over the three defaults, for any iteration order and either line separator, when no name holds a colon and no entry a line break. |
| ChatServer.HandleRegister | ChatServer.java:174-215 | Registering succeeds exactly when the table changes. On success exactly one new entry is added and no other entry changes. A failure changes nothing. The connection's state is unchanged, so registering does not log it in. |
| ChatServer.HandleLogin | ChatServer.java:226-255 | Unknown user: 401 `用户不存在`. Wrong password: 401 `密码错误`. Either failure changes nothing. Success binds the name to this connection and sends 200 first, then the queued lines in order, and empties that queue only. |
| ChatServer.HandleChat | ChatServer.java:260-286 | Before login: 403 and nothing else. Otherwise the raw line is forwarded to the online target, or appended to the target's queue, and the sender gets 200. |
| ChatServer.HandleMessage | ChatServer.java:145-169 | A `REGISTER:` line goes to the registration handler whatever else it holds. Any other line is dispatched on its `type`: LOGIN and MSG to their handlers, PING gets 200 `PONG`, and any other type gets 400 `Unknown message type: …` with nothing changed. Only a registration can change the user table, and it only adds. Only a LOGIN can change the connection's state. Every line gets a reply. |
| ChatServer.Disconnect | ChatServer.java:332-337 | `cleanup` takes the connection's name offline and changes nothing else. |
| ChatServer.Session | ChatServer.java:123-140 | Over a connection's lines, accounts are only added, and every line gets a reply. A logged-in name implies some LOGIN line that is not a `REGISTER:` line, and the name is offline at the end. |
| ChatServer.RegisterLine | ChatServer.java:177-215 | For `REGISTER:user:pass` the reply is the first failing check, in the order name length, password length, novelty. The password is taken whole. Success inserts exactly `(user, pass)`. |
| ChatServer.RegisterWithoutPassword | ChatServer.java:177-180 | A `REGISTER:` line without a second colon is `Invalid format` and changes nothing. |
| ChatServer.RegisterTakesPrecedence | ChatServer.java:148-151 | A `REGISTER:` line is never read as JSON, even if it carries a LOGIN type. |
| ChatServer.UnknownTypeRejected | ChatServer.java:161-163 | Any other type gets 400 `Unknown message type: …` naming it, and changes nothing. |
| ChatServer.ChatBeforeLoginRejected | ChatServer.java:261-264 | A MSG before login gets 403 `请先登录`. Nothing is forwarded or queued. |
| ChatServer.QueuedUntilLogin | ChatServer.java:280-298 | A message to an offline user reaches that user right after the 200 of their next login, behind what was already queued. |
| RobustChatServer.Start | RobustChatServer.java:39-46 | At start nobody is online and the offline queues are the ones loaded. A missing user file means the three defaults, and a missing video file means no videos. What a present user file yields is stated by `RobustChatServer.UsersSurviveRestart`. |
| RobustChatServer.UsersSurviveRestart | RobustChatServer.java:80-121 | The user file written by `saveUsersToFile` is read back at the next start as exactly the saved table, for any iteration order and either line separator, when no name holds a colon and no entry a line break. |
| RobustChatServer.HandleRegisterSimple | RobustChatServer.java:258-297 | `REGISTER_SUCCESS` exactly when the line has three parts and a new name. Failure changes nothing. Success adds exactly `(uid, pwd)` and binds the name to this connection. No length is checked. |
| RobustChatServer.HandleLogin | RobustChatServer.java:206-253 | Empty name, unknown name and wrong password each get their 401, in that order, and change nothing. Only success sets the user, binds it and sends 200 followed by the queued lines. |
| RobustChatServer.Handshake | RobustChatServer.java:145-174 | A `REGISTER:` first line gets the registration handler, and a LOGIN first line gets the login handler with its 401 chain. Any other first line gets 400 `First message must be LOGIN or REGISTER`. The connection is admitted exactly when its first line is an accepted registration or an accepted LOGIN. Otherwise it gets one reply and nothing changes. |
| RobustChatServer.HandleChat | RobustChatServer.java:353-380 | The raw line is forwarded to the online target with 200 `消息已发送`. For an offline target it is queued under `to` once, with 200 `对方离线，消息已暂存`. |
| RobustChatServer.HandleMessage | RobustChatServer.java:323-348 | MSG goes to the chat handler. PING gets 200 `PONG`, PUBLISH_VIDEO gets 200 `视频发布成功`, GET_VIDEOS gets the list, and unknown types get 400 `未知消息类型: …`. No line changes users or sessions. Only PUBLISH_VIDEO adds a video, and it adds the line itself. Only a MSG to an offline user queues. Every type but MSG and PUBLISH_VIDEO leaves the state unchanged. |
| RobustChatServer.Serve | RobustChatServer.java:177-181 | Over the loop, users and sessions stay fixed, and the published lines are appended to the videos in order. Each queue grows by exactly the MSG lines addressed to that offline user, in order. |
| RobustChatServer.Cleanup | RobustChatServer.java:447-452 | `cleanup` takes the connection's user offline and changes nothing else. |
| RobustChatServer.Session | RobustChatServer.java:138-188 | No first line: nothing happens. A first line that is not admitted: one reply and no change. Otherwise users only grow, the published videos are appended in order, every queue grows by exactly the MSG lines sent to that user while offline, and at the end exactly this connection's user is taken offline, every other binding unchanged. |
| RobustChatServer.RegisterLine | RobustChatServer.java:258-291 | `REGISTER:user:pass` with a new colon-free name is accepted whatever its lengths. The password is kept whole, and the user is online at once. |
| RobustChatServer.RegisterTakenName | RobustChatServer.java:272-277 | Registering a taken name gets `REGISTER_FAILED`, and the connection is not admitted. |
| RobustChatServer.RegisterWithoutPassword | RobustChatServer.java:261-266 | A `REGISTER:` line without a second colon gets `REGISTER_FAILED`. |
| RobustChatServer.PublishedVideoIsListed | RobustChatServer.java:385-418 | A published video appears in a later GET_VIDEOS reply, after the earlier ones. |
| RobustChatServer.VideosSurviveRestart | RobustChatServer.java:46-53 | The video file saved at shutdown reloads as the same list at the next start. |
| RobustChatServer.QueuedUntilLogin | RobustChatServer.java:302-318 | A message to an offline user reaches them right after the 200 of their next accepted LOGIN, behind earlier queued lines. |
| UploadForm.ErrorBodyFields | UploadServletJava11.java:100-107 | Every error body reads back with status `error` and url `null`. |
| UploadForm.FileUrlIsValue | UploadServlet.java:115-116 | A file URL is a non-empty value without quotes, commas or braces when the host and file name are. |
| UploadServlet.Writes | UploadServlet.java:95-138 | The item loop writes no more files than there are items. Which files, and in what order, is stated by `UploadServlet.WritesSound`, `UploadServlet.WritesComplete` and `UploadServlet.WritesOrdered`. |
| UploadServlet.WritesSound | UploadServlet.java:95-138 | Each write comes from a `video` or `cover` file item, goes to that name's directory, and is named after the one id. Nothing else is written. |
| UploadServlet.WritesComplete | UploadServlet.java:95-138 | Every `video` file item and every `cover` file item gets its file written. |
| UploadServlet.WritesOrdered | UploadServlet.java:95-138 | Files are written in item order, each item at most once. |
| UploadServlet.DoPost | UploadServlet.java:41-160 | Not multipart: error. No items: `No file found`. Otherwise the writes are those of each video/cover item. The body is success with the video URL (and the cover URL or `null`) exactly when a video item came, else `No video file found`. |
| UploadServlet.SuccessBodyFields | UploadServlet.java:165-180 | The success body reads back with status `success` and the video URL. |
| UploadServlet.CoverFieldReads | UploadServlet.java:165-177 | The success body's `coverUrl` reads back as the cover URL when there is one, and as `null` otherwise. |
| UploadServlet.CoverUrlField | UploadServlet.java:165-177 | `coverUrl` reads back as the cover URL when a cover came, and as `null` exactly when none did. |
| UploadServlet.CoverWithoutVideo | UploadServlet.java:118-146 | Covers without a video are still written, and the reply is `No video file found`. |
| UploadServletJava11.FirstFile | UploadServletJava11.java:54-75 | Finds the first item that is not a form field, or reports that all items are form fields. |
| UploadServletJava11.DoPost | UploadServletJava11.java:22-89 | Not multipart: error. No items: `No file found`. Only form fields: no body at all. Otherwise only the first file item, whatever its name, is written as `<id>.mp4`, and the success body carries its URL. |
| UploadServletJava11.SuccessBodyFields | UploadServletJava11.java:91-98 | The success body reads back with status `success` and the file URL. |
| UploadServletJava11.LaterItemsIgnored | UploadServletJava11.java:55-73 | Items after the first file never change which item is stored. |

## Left out

- Sockets, threads and concurrency are left out. The hash maps are
  concurrent in Java, but here each handler runs on one state value, one
  line at a time. The two `Session` methods run one connection's lines
  without the lines of other connections interleaved.
- Console logging is left out. It has no effect on state or replies.
- File I/O is reduced to text. A file's content is an `Option<string>`
  (`None` when the file is missing), and the writers return the text they
  would write. The handlers do not emit the `users.txt` rewrite that
  follows a registration, or the one after a missing user file; the table
  they produce is what would be written.
- Hash-map iteration order is not fixed in Java. It is the parameter
  `order` of the writers.
- Exceptions are left out, together with the replies that only an
  exception produces:
  - 500 `Server error: …`;
  - `REGISTER_FAIL:Server error`;
  - `REGISTER_FAILED` from the catch block;
  - `消息处理失败`, `消息转发失败`, `发布视频失败`, `获取视频列表失败`, `登录失败`;
  - the upload bodies `Upload failed: …` and `Server error: …`.

  None of the modelled branches throws except through I/O or the upload
  library.
- The offline-message loader (RobustChatServer.java:531-596) is not
  modelled, because it does not read the format the writer produces:
  - it looks for `":[`, but the writer emits `": [`;
  - it splits on `","`, but the writer joins with `", "` and with a comma
    plus a line break;
  - it never undoes the writer's escaping.

  `RobustChatServer.Start` therefore takes the loaded store as a parameter.
- OfflineStore.SaveJson: the contract only states the frame of the file,
  not a read-back, because the program has no reader for its own format.
  The escaping of each message is covered separately by
  `OfflineStore.EscapeIsLossless`.
- ChatServer.HandleRegister: the lengths are counted in characters. Java
  counts UTF-16 code units, so a name with characters outside the Basic
  Multilingual Plane is measured differently.
- RobustChatServer.Serve: the contract bounds the number of lines sent
  (one or two per line) but does not list them. Each line's replies are
  stated by `RobustChatServer.HandleMessage`: the reply of every type
  and, for MSG, the `RobustChatServer.HandleChat` step.
- ChatServer.Session: the contract states what a whole connection
  preserves, not the exact lines sent. Each line's replies are stated by
  `ChatServer.HandleMessage`: which handler a line goes to, and the PING
  and unknown-type replies.
- `UUID.randomUUID()`, the server name and the server port are
  parameters. UploadServletJava11 draws its id only once a file item is
  reached, and only one is ever reached, so one `id` parameter stands for
  it.
- The commons-fileupload parsing, its size limits, directory creation and
  the bytes of the written files are left out. Items are given as a list of
  `(isFormField, fieldName)`.
- `extractValue` is modelled for this one pattern only, not as a general
  regular-expression engine. `\s` is taken as space, tab, line feed,
  carriage return, vertical tab and form feed.
- The shutdown hook is not modelled as an operation. The effect it exists
  for is stated by `RobustChatServer.VideosSurviveRestart`.
- `TestConnection.java` and the `database/` files are not part of this
  model. They hold smoke scripts and JDBC calls whose logic lives in the
  database.

=== FILE: chat_server.dfy ===
/**
 * ChatServer: every line a connection sends goes to `handleMessage`, which
 * handles `REGISTER:user:pass` lines and the JSON messages LOGIN, MSG and
 * PING. The server state shared by all connections is one `Server` value;
 * the per-connection state is the `Conn`. Each handler is a pure function
 * from the state and one input line to the new state and the lines sent.
 */
module ChatServer {
  import opened Wrappers
  import opened Strings
  import opened JsonScan
  import opened Protocol
  import opened UserTable
  import OfflineStore

  /**
   * `users`: the user table; `online`: the connection each logged-in user
   * name is bound to (`onlineUsers`); `offline`: the queued lines.
   */
  datatype Server = Server(users: UserDb, online: map<string, ConnId>, offline: OfflineStore.Store)

  /** One `ClientHandler`: its connection and the name it logged in as, if any. */
  datatype Conn = Conn(id: ConnId, username: Option<string>)

  /** The result of handling one line: new shared state, new connection state, lines sent in order. */
  datatype Step = Step(server: Server, conn: Conn, out: seq<Send>)

  const RegisterSuccess: string := "REGISTER_SUCCESS"
  const InvalidFormat: string := "REGISTER_FAIL:Invalid format"
  const BadUsernameLength: string := "REGISTER_FAIL:Username length must be 3-20 characters"
  const ShortPassword: string := "REGISTER_FAIL:Password must be at least 6 characters"
  const UsernameTaken: string := "REGISTER_FAIL:Username already exists"

  /** The state after start-up: the user table loaded over the defaults, nobody online, nothing queued. */
  function Start(usersFile: Option<string>): (r: Server)
    ensures r.online == map[] && r.offline == map[]
    ensures Defaults.Keys <= r.users.Keys
    ensures usersFile.None? ==> r.users == Defaults
  {
    Server(LoadChat(usersFile), map[], map[])
  }

  /**
   * `handleRegister`: the line is split at its first two colons; then, in
   * this order, the format, the name's length (3 to 20), the password's
   * length (at least 6) and the name's novelty are checked, and the first
   * failure is the reply. Registering does not log the connection in.
   */
  function HandleRegister(s: Server, c: Conn, line: string): (r: Step)
    ensures r.conn == c && r.server.online == s.online && r.server.offline == s.offline
    ensures |r.out| == 1 && r.out[0].to == c.id
    ensures r.out[0].line == RegisterSuccess <==> r.server.users != s.users
    ensures r.out[0].line != RegisterSuccess ==> r.server == s
    ensures r.out[0].line == RegisterSuccess ==>
              && |r.server.users| == |s.users| + 1
              && s.users.Keys < r.server.users.Keys
              && forall u :: u in s.users ==> r.server.users[u] == s.users[u]
  {
    var parts := SplitLimit(line, ':', 3);
    if |parts| != 3 then Step(s, c, [Send(c.id, InvalidFormat)])
    else
      var user := parts[1];
      var pass := parts[2];
      if |user| < 3 || |user| > 20 then Step(s, c, [Send(c.id, BadUsernameLength)])
      else if |pass| < 6 then Step(s, c, [Send(c.id, ShortPassword)])
      else if user in s.users then Step(s, c, [Send(c.id, UsernameTaken)])
      else
        var users := s.users[user := pass];
        assert users.Keys == s.users.Keys + {user};
        Step(s.(users := users), c, [Send(c.id, RegisterSuccess)])
  }

  /** The `user` and `pass` fields of a LOGIN line name an account and its password. */
  predicate LoginAccepted(s: Server, line: string) {
    var user := ExtractValue(line, "user");
    user in s.users && s.users[user] == ExtractValue(line, "pass")
  }

  /**
   * `handleLogin`: an unknown name or a wrong password gets a 401 and
   * changes nothing. On success the connection takes the name, the name is
   * bound to this connection, the 200 reply goes out, and then the lines
   * queued for the name, oldest first, after which the queue is gone.
   */
  function HandleLogin(s: Server, c: Conn, line: string): (r: Step)
    ensures r.server.users == s.users && r.conn.id == c.id && r.out != []
    ensures !LoginAccepted(s, line) ==> r.server == s && r.conn == c && |r.out| == 1
    ensures ExtractValue(line, "user") !in s.users ==> r.out[0] == Send(c.id, Ack(401, "用户不存在"))
    ensures ExtractValue(line, "user") in s.users && !LoginAccepted(s, line) ==>
              r.out[0] == Send(c.id, Ack(401, "密码错误"))
    ensures LoginAccepted(s, line) ==>
              var user := ExtractValue(line, "user");
              && r.out[0] == Send(c.id, Ack(200, "登录成功"))
              && r.conn.username == Some(user)
              && r.server.online == s.online[user := c.id]
              && r.out[1..] == SendAll(c.id, OfflineStore.Queue(s.offline, user))
              && OfflineStore.Queue(r.server.offline, user) == []
              && forall u :: u != user ==> OfflineStore.Queue(r.server.offline, u) == OfflineStore.Queue(s.offline, u)
  {
    var user := ExtractValue(line, "user");
    var pass := ExtractValue(line, "pass");
    if user !in s.users then Step(s, c, [Send(c.id, Ack(401, "用户不存在"))])
    else if s.users[user] != pass then Step(s, c, [Send(c.id, Ack(401, "密码错误"))])
    else
      var (queued, offline) := OfflineStore.GetAndClear(s.offline, user);
      Step(Server(s.users, s.online[user := c.id], offline),
           Conn(c.id, Some(user)),
           [Send(c.id, Ack(200, "登录成功"))] + SendAll(c.id, queued))
  }

  /**
   * `handleChatMessage`: before login the reply is 403 and nothing else
   * happens. Otherwise the raw line goes unchanged to the connection the
   * `to` user is bound to, or, when that user is not online, to the end
   * of that user's queue; either way the sender gets a 200.
   */
  function HandleChat(s: Server, c: Conn, line: string): (r: Step)
    ensures r.conn == c && r.server.users == s.users && r.server.online == s.online
    ensures c.username.None? ==> r.server == s && r.out == [Send(c.id, Ack(403, "请先登录"))]
    ensures c.username.Some? ==>
              var to := ExtractValue(line, "to");
              && (to in s.online ==>
                    r.server == s && r.out == [Send(s.online[to], line), Send(c.id, Ack(200, "消息已发送"))])
              && (to !in s.online ==>
                    r.server.offline == OfflineStore.AddMessage(s.offline, to, line)
                    && r.out == [Send(c.id, Ack(200, "对方离线，消息已暂存"))])
  {
    if c.username.None? then Step(s, c, [Send(c.id, Ack(403, "请先登录"))])
    else
      var to := ExtractValue(line, "to");
      if to in s.online then
        Step(s, c, [Send(s.online[to], line), Send(c.id, Ack(200, "消息已发送"))])
      else
        Step(s.(offline := OfflineStore.AddMessage(s.offline, to, line)), c,
             [Send(c.id, Ack(200, "对方离线，消息已暂存"))])
  }

  /**
   * `handleMessage`: a line starting with `REGISTER:` is a registration
   * whatever else it holds; any other line is dispatched on its `type`
   * field. Only a registration can change the user table, and only a
   * LOGIN can change the connection's state.
   */
  function HandleMessage(s: Server, c: Conn, line: string): (r: Step)
    ensures r.conn.id == c.id && r.out != []
    ensures s.users.Keys <= r.server.users.Keys
    ensures r.server.users != s.users ==> StartsWith(line, "REGISTER:")
    ensures r.conn != c ==> !StartsWith(line, "REGISTER:") && ExtractValue(line, "type") == "LOGIN"
    ensures StartsWith(line, "REGISTER:") ==> r == HandleRegister(s, c, line)
    ensures !StartsWith(line, "REGISTER:") ==>
              var kind := ExtractValue(line, "type");
              && (kind == "LOGIN" ==> r == HandleLogin(s, c, line))
              && (kind == "MSG" ==> r == HandleChat(s, c, line))
              && (kind == "PING" ==> r == Step(s, c, [Send(c.id, Ack(200, "PONG"))]))
              && (kind !in {"LOGIN", "MSG", "PING"} ==> r == Step(s, c, [Send(c.id, Ack(400, "Unknown message type: " + kind))]))
  {
    if StartsWith(line, "REGISTER:") then HandleRegister(s, c, line)
    else
      var kind := ExtractValue(line, "type");
      if kind == "LOGIN" then HandleLogin(s, c, line)
      else if kind == "MSG" then HandleChat(s, c, line)
      else if kind == "PING" then Step(s, c, [Send(c.id, Ack(200, "PONG"))])
      else Step(s, c, [Send(c.id, Ack(400, "Unknown message type: " + kind))])
  }

  /** `cleanup` when the connection closes: its name, if any, is no longer bound. */
  function Disconnect(s: Server, c: Conn): (r: Server)
    ensures r.users == s.users && r.offline == s.offline
    ensures c.username.Some? ==> c.username.value !in r.online
    ensures forall u :: u in r.online ==> u in s.online && r.online[u] == s.online[u]
    ensures c.username.Some? ==> r.online == s.online - {c.username.value}
    ensures c.username.None? ==> r == s
  {
    match c.username
    case None => s
    case Some(u) => s.(online := s.online - {u})
  }

  /**
   * `run` of one connection: every line it sends, in order, goes through
   * `handleMessage`, and `cleanup` follows the last one (lines of other
   * connections are not interleaved here). Accounts are only ever added,
   * every line gets at least one line sent back to the sender, and the name
   * the connection last logged in as is no longer online at the end.
   */
  method Session(s: Server, id: ConnId, lines: seq<string>) returns (r: Server, c: Conn, out: seq<Send>)
    ensures c.id == id
    ensures s.users.Keys <= r.users.Keys
    ensures c.username.Some? ==> c.username.value !in r.online
    ensures c.username.Some? ==>
              exists i :: 0 <= i < |lines| && !StartsWith(lines[i], "REGISTER:") && ExtractValue(lines[i], "type") == "LOGIN"
    ensures |out| >= |lines|
  {
    r := s;
    c := Conn(id, None);
    out := [];
    var i := 0;
    while i < |lines|
      invariant 0 <= i <= |lines|
      invariant c.id == id
      invariant s.users.Keys <= r.users.Keys
      invariant c.username.Some? ==>
                  exists j :: 0 <= j < i && !StartsWith(lines[j], "REGISTER:") && ExtractValue(lines[j], "type") == "LOGIN"
      invariant |out| >= i
    {
      var step := HandleMessage(r, c, lines[i]);
      r, c, out := step.server, step.conn, out + step.out;
      i := i + 1;
    }
    r := Disconnect(r, c);
  }

  /**
   * Accounts survive a restart: the user file `saveUsersToFile` writes
   * after a registration is read back at the next start as the saved
   * entries laid over the three default accounts, provided no name holds
   * a colon and no entry a line break.
   */
  lemma UsersSurviveRestart(db: UserDb, order: seq<string>, nl: LineSeparator)
    requires ListsKeys(order, db)
    requires forall u :: u in db ==> ':' !in u && NoLineBreak(u) && NoLineBreak(db[u])
    ensures Start(Some(SaveUsers(db, order, nl))).users == Defaults + db
  {
    SaveLoadOverDefaults(db, order, nl);
  }

  /**
   * The registration validators, seen from the line a client sends: for
   * `REGISTER:user:pass` with a colon-free name the reply is the first
   * failing check, in the order format, name length, password length,
   * novelty; the password may hold colons and is taken whole.
   */
  lemma RegisterLine(s: Server, c: Conn, user: string, pass: string)
    requires ':' !in user
    ensures var r := HandleMessage(s, c, "REGISTER:" + user + ":" + pass);
            && r.out[0].line == (
                 if |user| < 3 || |user| > 20 then BadUsernameLength
                 else if |pass| < 6 then ShortPassword
                 else if user in s.users then UsernameTaken
                 else RegisterSuccess)
            && (r.out[0].line == RegisterSuccess ==> r.server == s.(users := s.users[user := pass]))
  {
    var line := "REGISTER:" + user + ":" + pass;
    assert line == "REGISTER" + [':'] + user + [':'] + pass;
    SplitThreeOf("REGISTER", ':', user, pass);
    assert StartsWith(line, "REGISTER:");
  }

  /** A `REGISTER:` line with no second colon is rejected as malformed, and nothing changes. */
  lemma RegisterWithoutPassword(s: Server, c: Conn, rest: string)
    requires ':' !in rest
    ensures var r := HandleMessage(s, c, "REGISTER:" + rest);
            r.out == [Send(c.id, InvalidFormat)] && r.server == s && r.conn == c
  {
    var line := "REGISTER:" + rest;
    assert line == "REGISTER" + [':'] + rest;
    SplitTwoOf("REGISTER", ':', rest);
    assert StartsWith(line, "REGISTER:");
  }

  /**
   * A `REGISTER:` line is never read as JSON: even one that also carries
   * `"type":"LOGIN"` leaves the connection logged out and gets a
   * `REGISTER_` reply.
   */
  lemma RegisterTakesPrecedence(s: Server, c: Conn, line: string)
    requires StartsWith(line, "REGISTER:")
    ensures var r := HandleMessage(s, c, line);
            r.conn == c && r.server.online == s.online && |r.out| == 1 &&
            r.out[0].line in {RegisterSuccess, InvalidFormat, BadUsernameLength, ShortPassword, UsernameTaken}
  {
  }

  /** Any other `type` than LOGIN, MSG or PING gets a 400 naming it, and changes nothing. */
  lemma UnknownTypeRejected(s: Server, c: Conn, line: string)
    requires !StartsWith(line, "REGISTER:")
    requires ExtractValue(line, "type") !in {"LOGIN", "MSG", "PING"}
    ensures var r := HandleMessage(s, c, line);
            r.server == s && r.conn == c &&
            r.out == [Send(c.id, Ack(400, "Unknown message type: " + ExtractValue(line, "type")))]
  {
  }

  /** A MSG from a connection that has not logged in gets a 403; nothing is forwarded or queued. */
  lemma ChatBeforeLoginRejected(s: Server, c: Conn, line: string)
    requires c.username.None?
    requires !StartsWith(line, "REGISTER:") && ExtractValue(line, "type") == "MSG"
    ensures HandleMessage(s, c, line) == Step(s, c, [Send(c.id, Ack(403, "请先登录"))])
  {
  }

  /**
   * A message to a user who is offline is kept, once, behind the lines
   * already queued for that user, and all of them reach the user, in that
   * order, right after the 200 of the user's next successful login.
   */
  lemma QueuedUntilLogin(s: Server, sender: Conn, msg: string, receiver: Conn, login: string)
    requires sender.username.Some?
    requires !StartsWith(msg, "REGISTER:") && ExtractValue(msg, "type") == "MSG"
    requires ExtractValue(msg, "to") !in s.online
    requires !StartsWith(login, "REGISTER:") && ExtractValue(login, "type") == "LOGIN"
    requires ExtractValue(login, "user") == ExtractValue(msg, "to")
    requires ExtractValue(login, "user") in s.users
    requires s.users[ExtractValue(login, "user")] == ExtractValue(login, "pass")
    ensures var to := ExtractValue(msg, "to");
            var sent := HandleMessage(s, sender, msg);
            var r := HandleMessage(sent.server, receiver, login);
            r.out == [Send(receiver.id, Ack(200, "登录成功"))]
                     + SendAll(receiver.id, OfflineStore.Queue(s.offline, to) + [msg])
  {
    var to := ExtractValue(msg, "to");
    var sent := HandleMessage(s, sender, msg);
    assert sent.server.offline == OfflineStore.AddMessage(s.offline, to, msg);
    var r := HandleMessage(sent.server, receiver, login);
    assert r.out[0] == Send(receiver.id, Ack(200, "登录成功"));
    assert r.out == [r.out[0]] + r.out[1..];
  }
}

=== FILE: json_scan.dfy ===
/**
 * `extractValue(json, key)`, the servers' only JSON reader. It runs the
 * regular expression
 *
 *     "key"\s*:\s*"?([^",}]+)"?
 *
 * with `Matcher.find()` and returns group 1, or "" when nothing matches.
 * The regex engine is not modelled; instead `MatchAt` spells out what the
 * backtracking matcher does at one start position, and `ExtractValue`
 * takes the leftmost start that matches, as `find()` does.
 */
module JsonScan {
  import opened Wrappers
  import opened Strings

  /** The characters `\s` matches in a Java regex. */
  predicate IsRegexSpace(c: char) {
    c == ' ' || c == '\t' || c == '\n' || c == '\r' || c as int == 0x0B || c as int == 0x0C
  }

  /** The characters the group `[^",}]` accepts. */
  predicate IsValueChar(c: char) {
    c != '"' && c != ',' && c != '}'
  }

  predicate AllValueChars(v: string) {
    forall k :: 0 <= k < |v| ==> IsValueChar(v[k])
  }

  /**
   * No match of a key starting with `c` can begin inside `s`: every quote
   * in `s` is followed, still inside `s`, by something other than `c`.
   */
  predicate QuotesNotBefore(s: string, c: char) {
    forall q :: 0 <= q < |s| && s[q] == '"' ==> q + 1 < |s| && s[q + 1] != c
  }

  lemma QuotesNotBeforeAppend(a: string, b: string, c: char)
    requires QuotesNotBefore(a, c) && QuotesNotBefore(b, c)
    ensures QuotesNotBefore(a + b, c)
  {
    forall q | 0 <= q < |a + b| && (a + b)[q] == '"'
      ensures q + 1 < |a + b| && (a + b)[q + 1] != c
    {
      if q < |a| {
        assert a[q] == '"';
      } else {
        assert b[q - |a|] == '"';
      }
    }
  }

  lemma AllValueCharsAppend(a: string, b: string)
    ensures AllValueChars(a + b) <==> AllValueChars(a) && AllValueChars(b)
  {
    if AllValueChars(a + b) {
      forall k | 0 <= k < |a| ensures IsValueChar(a[k]) { assert (a + b)[k] == a[k]; }
      forall k | 0 <= k < |b| ensures IsValueChar(b[k]) { assert (a + b)[|a| + k] == b[k]; }
    }
  }

  /** The text the regex begins with: the key in double quotes. */
  function KeyPattern(key: string): string {
    "\"" + key + "\""
  }

  /** The object member `"key":"v"` as the servers write it: the value in quotes, nothing escaped. */
  function Quoted(key: string, v: string): string {
    KeyPattern(key) + ":\"" + v + "\""
  }

  /** The object member `"key":v` with the value written bare (a number, `null`, an array). */
  function Bare(key: string, v: string): string {
    KeyPattern(key) + ":" + v
  }

  /** The end of the run of `\s` characters that starts at `i` (a greedy `\s*`). */
  function SkipSpaces(s: string, i: nat): (j: nat)
    requires i <= |s|
    ensures i <= j <= |s|
    ensures forall k :: i <= k < j ==> IsRegexSpace(s[k])
    ensures j < |s| ==> !IsRegexSpace(s[j])
    decreases |s| - i
  {
    if i < |s| && IsRegexSpace(s[i]) then SkipSpaces(s, i + 1) else i
  }

  /** The end of the run of value characters that starts at `i` (a greedy `[^",}]+`). */
  function ValueEnd(s: string, i: nat): (j: nat)
    requires i <= |s|
    ensures i <= j <= |s|
    ensures AllValueChars(s[i..j])
    ensures j < |s| ==> !IsValueChar(s[j])
    decreases |s| - i
  {
    if i < |s| && IsValueChar(s[i]) then
      var j := ValueEnd(s, i + 1);
      assert s[i..j] == [s[i]] + s[i + 1..j];
      j
    else i
  }

  /**
   * What the matcher captures when it is anchored at the start of `t`.
   * After the colon the greedy `\s*` first takes every space and `"?` takes
   * a quote if there is one; when the group then cannot take a single
   * character, `"?` gives its quote back, and after that `\s*` gives back
   * its last space, which the group then accepts (so `"k": ""` captures
   * one space).
   */
  function MatchHere(t: string, key: string): (r: Option<string>)
    ensures r.Some? ==> r.value != [] && AllValueChars(r.value)
    ensures r.Some? ==> StartsWith(t, KeyPattern(key))
  {
    var open := KeyPattern(key);
    if !StartsWith(t, open) then None
    else
      var colon := SkipSpaces(t, |open|);
      if colon == |t| || t[colon] != ':' then None
      else
        var e := SkipSpaces(t, colon + 1);
        if e + 1 < |t| && t[e] == '"' && IsValueChar(t[e + 1]) then
          Some(t[e + 1..ValueEnd(t, e + 1)])
        else if e < |t| && IsValueChar(t[e]) then
          Some(t[e..ValueEnd(t, e)])
        else if e > colon + 1 then
          Some(t[e - 1..ValueEnd(t, e - 1)])
        else
          None
  }

  /** What the matcher captures when it starts at position `p` of `s`. */
  function MatchAt(s: string, key: string, p: nat): (r: Option<string>)
    requires p <= |s|
    ensures r.Some? ==> r.value != [] && AllValueChars(r.value)
  {
    MatchHere(s[p..], key)
  }

  /** The capture of the leftmost match starting at or after `p`, or "". */
  function FindFrom(s: string, key: string, p: nat): (r: string)
    requires p <= |s|
    ensures r == [] <==> forall q :: p <= q <= |s| ==> MatchAt(s, key, q).None?
    ensures r != [] ==> AllValueChars(r)
    decreases |s| - p
  {
    match MatchAt(s, key, p)
    case Some(v) => v
    case None => if p == |s| then "" else FindFrom(s, key, p + 1)
  }

  /**
   * `extractValue(json, key)`: the value of the first place `"key"` is
   * followed by a colon and a value, or "" when there is none. A non-empty
   * result never holds a double quote, comma or closing brace.
   */
  function ExtractValue(json: string, key: string): (r: string)
    ensures r == [] <==> forall q :: 0 <= q <= |json| ==> MatchAt(json, key, q).None?
    ensures r != [] ==> AllValueChars(r)
  {
    FindFrom(json, key, 0)
  }

  lemma {:induction false} FindFromFirst(s: string, key: string, p: nat, m: nat, v: string)
    requires p <= m <= |s|
    requires forall q :: p <= q < m ==> MatchAt(s, key, q).None?
    requires MatchAt(s, key, m) == Some(v)
    ensures FindFrom(s, key, p) == v
    decreases m - p
  {
    if p < m {
      FindFromFirst(s, key, p + 1, m, v);
    }
  }

  /** No match can start at a position that does not hold a double quote. */
  lemma NoMatchOffQuote(s: string, key: string, p: nat)
    requires p < |s| && s[p] != '"'
    ensures MatchAt(s, key, p).None?
  {
    assert s[p..][0] != KeyPattern(key)[0];
    assert !StartsWith(s[p..], KeyPattern(key));
  }

  lemma {:induction false} ValueEndOf(s: string, i: nat, n: nat)
    requires i + n < |s|
    requires AllValueChars(s[i..i + n])
    requires !IsValueChar(s[i + n])
    ensures ValueEnd(s, i) == i + n
    decreases n
  {
    if n > 0 {
      assert s[i] == s[i..i + n][0];
      assert s[i + 1..i + n] == s[i..i + n][1..];
      ValueEndOf(s, i + 1, n - 1);
    }
  }

  /** Anchored at a quoted member, the matcher captures exactly the text between the value's quotes. */
  lemma QuotedMatches(key: string, v: string, rest: string)
    requires v != [] && AllValueChars(v)
    ensures MatchHere(Quoted(key, v) + rest, key) == Some(v)
  {
    var open := KeyPattern(key);
    var t := Quoted(key, v) + rest;
    var n := |open|;
    assert t == open + (":\"" + v + "\"" + rest);
    assert t[..n] == open;
    assert t[n] == ':' && t[n + 1] == '"';
    assert SkipSpaces(t, n) == n;
    assert SkipSpaces(t, n + 1) == n + 1;
    assert t[n + 2..n + 2 + |v|] == v;
    assert t[n + 2 + |v|] == '"';
    assert IsValueChar(t[n + 2]);
    ValueEndOf(t, n + 2, |v|);
  }

  /**
   * Anchored at a bare member, the matcher captures the value up to the
   * quote, comma or closing brace that follows it.
   */
  lemma BareMatches(key: string, v: string, rest: string)
    requires v != [] && AllValueChars(v) && v[0] != '"' && !IsRegexSpace(v[0])
    requires rest != [] && !IsValueChar(rest[0])
    ensures MatchHere(Bare(key, v) + rest, key) == Some(v)
  {
    var open := KeyPattern(key);
    var t := Bare(key, v) + rest;
    var n := |open|;
    assert t == open + (":" + v + rest);
    assert t[..n] == open;
    assert t[n] == ':' && t[n + 1] == v[0];
    assert SkipSpaces(t, n) == n;
    assert SkipSpaces(t, n + 1) == n + 1;
    assert t[n + 1..n + 1 + |v|] == v;
    assert t[n + 1 + |v|] == rest[0];
    ValueEndOf(t, n + 1, |v|);
  }

  /**
   * Reading a quoted member: when no match starts inside the text `pre`
   * before it, `extractValue` returns exactly the value (`NoMatchInPrefix`
   * gives one way to know that).
   */
  lemma ExtractQuoted(pre: string, key: string, v: string, rest: string)
    requires forall q :: 0 <= q < |pre| ==> MatchAt(pre + Quoted(key, v) + rest, key, q).None?
    requires v != [] && AllValueChars(v)
    ensures ExtractValue(pre + Quoted(key, v) + rest, key) == v
  {
    var t := Quoted(key, v) + rest;
    var s := pre + Quoted(key, v) + rest;
    assert s == pre + t;
    assert s[|pre|..] == t;
    QuotedMatches(key, v, rest);
    FindFromFirst(s, key, 0, |pre|, v);
  }

  /**
   * Reading a bare member such as `"url":null`, under the same condition
   * on `pre`: the value up to the quote, comma or brace that follows it.
   */
  lemma ExtractBare(pre: string, key: string, v: string, rest: string)
    requires forall q :: 0 <= q < |pre| ==> MatchAt(pre + Bare(key, v) + rest, key, q).None?
    requires v != [] && AllValueChars(v) && v[0] != '"' && !IsRegexSpace(v[0])
    requires rest != [] && !IsValueChar(rest[0])
    ensures ExtractValue(pre + Bare(key, v) + rest, key) == v
  {
    var t := Bare(key, v) + rest;
    var s := pre + Bare(key, v) + rest;
    assert s == pre + t;
    assert s[|pre|..] == t;
    BareMatches(key, v, rest);
    FindFromFirst(s, key, 0, |pre|, v);
  }

  lemma NoMatchInPrefix(pre: string, tail: string, key: string)
    requires key != [] && key[0] != '"'
    requires QuotesNotBefore(pre, key[0])
    ensures forall q :: 0 <= q < |pre| ==> MatchAt(pre + tail, key, q).None?
  {
    var s := pre + tail;
    forall q | 0 <= q < |pre|
      ensures MatchAt(s, key, q).None?
    {
      if s[q] != '"' {
        NoMatchOffQuote(s, key, q);
      } else {
        assert s[q + 1] == pre[q + 1] != key[0] == KeyPattern(key)[1];
        assert s[q..][1] == s[q + 1];
        assert !StartsWith(s[q..], KeyPattern(key));
      }
    }
  }

  /**
   * A quoted member followed by a comma holds no quote that a key starting
   * with `c` could follow, when neither the key nor the value starts with
   * `c`, neither holds a quote, and `c` is not the colon or comma that
   * also follow quotes there.
   */
  lemma QuotedNotBefore(key: string, v: string, c: char)
    requires key != [] && key[0] != c && AllValueChars(key)
    requires v != [] && v[0] != c && AllValueChars(v) && c != ':' && c != ','
    ensures QuotesNotBefore(Quoted(key, v) + ",", c)
  {
    var s := Quoted(key, v) + ",";
    var n := |key|;
    assert s == "\"" + key + "\":\"" + v + "\",";
    assert |s| == n + |v| + 6;
    assert forall k :: 0 <= k < n ==> s[1 + k] == key[k];
    assert forall k :: 0 <= k < |v| ==> s[n + 4 + k] == v[k];
    assert s[1 + 0] == key[0] && s[n + 4 + 0] == v[0];
    assert s[n + 2] == ':' && s[n + |v| + 5] == ',';
    forall q | 0 <= q < |s| && s[q] == '"'
      ensures q + 1 < |s| && s[q + 1] != c
    {
    }
  }

  /** Likewise for a bare member followed by a comma, whatever its value. */
  lemma BareNotBefore(key: string, v: string, c: char)
    requires key != [] && key[0] != c && AllValueChars(key)
    requires AllValueChars(v) && c != ':'
    ensures QuotesNotBefore(Bare(key, v) + ",", c)
  {
    var s := Bare(key, v) + ",";
    var n := |key|;
    assert s == "\"" + key + "\":" + v + ",";
    assert |s| == n + |v| + 4;
    assert forall k :: 0 <= k < n ==> s[1 + k] == key[k];
    assert forall k :: 0 <= k < |v| ==> s[n + 3 + k] == v[k];
    assert s[1 + 0] == key[0];
    assert s[n + 2] == ':' && s[n + |v| + 3] == ',';
    forall q | 0 <= q < |s| && s[q] == '"'
      ensures q + 1 < |s| && s[q + 1] != c
    {
    }
  }

  /**
   * One member of the flat JSON objects the servers write by hand (with
   * string concatenation or `String.format`, never escaping anything):
   * the value either in quotes or written bare.
   */
  datatype Member = Member(key: string, value: string, quoted: bool)

  function Render(m: Member): string {
    if m.quoted then Quoted(m.key, m.value) else Bare(m.key, m.value)
  }

  /** The members, separated by commas. */
  function Members(ms: seq<Member>): string
    decreases |ms|
  {
    if ms == [] then ""
    else if |ms| == 1 then Render(ms[0])
    else Render(ms[0]) + "," + Members(ms[1..])
  }

  /** `{m1,m2,...}`: the whole object on one line. */
  function Object(ms: seq<Member>): string {
    "{" + Members(ms) + "}"
  }

  /** Each member followed by its comma: the text of `ms` when more members follow. */
  function Lead(ms: seq<Member>): string
    decreases |ms|
  {
    if ms == [] then "" else Render(ms[0]) + "," + Lead(ms[1..])
  }

  /**
   * A member `extractValue` can read: a non-empty key and value with no
   * quote, comma or closing brace, and a bare value that does not start
   * with a space (the regex's `\s*` would take it).
   */
  predicate Readable(m: Member) {
    && m.key != [] && AllValueChars(m.key) && m.key[0] != ':'
    && m.value != [] && AllValueChars(m.value)
    && (!m.quoted ==> !IsRegexSpace(m.value[0]))
  }

  /**
   * A member written before the one whose key starts with `c` that cannot
   * be mistaken for it: neither its key nor (when quoted) its value starts
   * with `c`, and neither holds a quote.
   */
  predicate Passes(m: Member, c: char) {
    && m.key != [] && m.key[0] != c && AllValueChars(m.key)
    && AllValueChars(m.value)
    && (m.quoted ==> m.value != [] && m.value[0] != c)
  }

  /** Any member splits an object's members into what leads up to it, itself, and what follows. */
  lemma {:induction false} MembersAt(ms: seq<Member>, i: nat)
    requires i < |ms|
    ensures Members(ms) == Lead(ms[..i]) + Members(ms[i..])
    decreases i
  {
    if i > 0 {
      var head := Render(ms[0]) + ",";
      MembersAt(ms[1..], i - 1);
      assert ms[..i][1..] == ms[1..][..i - 1];
      assert ms[1..][i - 1..] == ms[i..];
      assert Lead(ms[..i]) == head + Lead(ms[1..][..i - 1]);
      Assoc(head, Lead(ms[1..][..i - 1]), Members(ms[i..]));
    }
  }

  /** The members after the first one start with a comma, and nothing at all follows the last one. */
  lemma MembersFrom(ms: seq<Member>)
    requires ms != []
    ensures |ms| == 1 ==> Members(ms) == Render(ms[0])
    ensures |ms| > 1 ==> Members(ms) == Render(ms[0]) + ("," + Members(ms[1..]))
  {
    if |ms| > 1 {
      Assoc(Render(ms[0]), ",", Members(ms[1..]));
    }
  }

  lemma {:induction false} LeadNotBefore(ms: seq<Member>, c: char)
    requires c != ':' && c != ','
    requires forall j :: 0 <= j < |ms| ==> Passes(ms[j], c)
    ensures QuotesNotBefore(Lead(ms), c)
    decreases |ms|
  {
    if ms != [] {
      var m := ms[0];
      if m.quoted {
        QuotedNotBefore(m.key, m.value, c);
      } else {
        BareNotBefore(m.key, m.value, c);
      }
      LeadNotBefore(ms[1..], c);
      QuotesNotBeforeAppend(Render(m) + ",", Lead(ms[1..]), c);
    }
  }

  /**
   * Every member a server writes reads back with `extractValue`: the value
   * of member `i` is found under its key, provided the member is readable
   * and none written before it can be mistaken for it.
   */
  lemma ObjectField(ms: seq<Member>, i: nat)
    requires i < |ms| && Readable(ms[i])
    requires forall j :: 0 <= j < i ==> Passes(ms[j], ms[i].key[0])
    ensures ExtractValue(Object(ms), ms[i].key) == ms[i].value
  {
    var m := ms[i];
    var c := m.key[0];
    var pre := "{" + Lead(ms[..i]);
    var rest := (if i + 1 < |ms| then "," + Members(ms[i + 1..]) else "") + "}";
    MembersAt(ms, i);
    MembersFrom(ms[i..]);
    assert ms[i..][0] == m && ms[i..][1..] == ms[i + 1..];
    assert Members(ms[i..]) + "}" == Render(m) + rest;
    assert Object(ms) == pre + (Render(m) + rest) by {
      Assoc("{", Lead(ms[..i]), Members(ms[i..]));
      Assoc("{" + Lead(ms[..i]), Members(ms[i..]), "}");
    }
    Assoc(pre, Render(m), rest);
    LeadNotBefore(ms[..i], c);
    assert QuotesNotBefore("{", c);
    QuotesNotBeforeAppend("{", Lead(ms[..i]), c);
    NoMatchInPrefix(pre, Render(m) + rest, m.key);
    if m.quoted {
      ExtractQuoted(pre, m.key, m.value, rest);
    } else {
      assert rest[0] == ',' || rest[0] == '}';
      ExtractBare(pre, m.key, m.value, rest);
    }
  }

  /** An object is one line when no key or value holds a line break. */
  lemma {:induction false} MembersOneLine(ms: seq<Member>)
    requires forall j :: 0 <= j < |ms| ==> NoLineBreak(ms[j].key) && NoLineBreak(ms[j].value)
    ensures NoLineBreak(Members(ms))
    decreases |ms|
  {
    if ms != [] {
      var m := ms[0];
      NoLineBreakAppend("\"", m.key);
      NoLineBreakAppend("\"" + m.key, "\"");
      NoLineBreakAppend(KeyPattern(m.key), ":\"");
      NoLineBreakAppend(KeyPattern(m.key) + ":\"", m.value);
      NoLineBreakAppend(KeyPattern(m.key) + ":\"" + m.value, "\"");
      NoLineBreakAppend(KeyPattern(m.key), ":");
      NoLineBreakAppend(KeyPattern(m.key) + ":", m.value);
      if |ms| > 1 {
        MembersOneLine(ms[1..]);
        NoLineBreakAppend(Render(m), ",");
        NoLineBreakAppend(Render(m) + ",", Members(ms[1..]));
      }
    }
  }

  lemma ObjectOneLine(ms: seq<Member>)
    requires forall j :: 0 <= j < |ms| ==> NoLineBreak(ms[j].key) && NoLineBreak(ms[j].value)
    ensures NoLineBreak(Object(ms))
  {
    MembersOneLine(ms);
    NoLineBreakAppend("{", Members(ms));
    NoLineBreakAppend("{" + Members(ms), "}");
  }
}

=== FILE: offline_store.dfy ===
/**
 * The per-user queue of chat lines kept for users who are not online:
 * `OfflineMessageStore` in RobustChatServer and the `offlineMessages` map
 * of ChatServer, which behave the same way (`computeIfAbsent(..).add` to
 * queue, `remove` to fetch and clear).
 */
module OfflineStore {
  import opened Strings

  /** Recipient name -> the lines queued for that recipient, oldest first. */
  type Store = map<string, seq<string>>

  /** The queue of `user`, empty when the store has no entry for it. */
  function Queue(s: Store, user: string): seq<string> {
    if user in s then s[user] else []
  }

  /** The store never holds an entry with an empty queue: entries are created by an append. */
  predicate NoEmptyQueues(s: Store) {
    forall u :: u in s ==> s[u] != []
  }

  /** `addMessage(user, line)`: `line` goes to the end of `user`'s queue; every other queue is left as it was. */
  function AddMessage(s: Store, user: string, line: string): (r: Store)
    ensures r.Keys == s.Keys + {user}
    ensures Queue(r, user) == Queue(s, user) + [line]
    ensures forall u :: u != user ==> Queue(r, u) == Queue(s, u)
    ensures NoEmptyQueues(s) ==> NoEmptyQueues(r)
  {
    s[user := Queue(s, user) + [line]]
  }

  /**
   * `getAndClear(user)`: the queued lines of `user` in the order they were
   * added (none when there is no entry), and the store without that entry.
   */
  function GetAndClear(s: Store, user: string): (r: (seq<string>, Store))
    ensures r.0 == Queue(s, user)
    ensures r.1.Keys == s.Keys - {user}
    ensures Queue(r.1, user) == []
    ensures forall u :: u != user ==> Queue(r.1, u) == Queue(s, u)
    ensures NoEmptyQueues(s) ==> NoEmptyQueues(r.1)
  {
    (Queue(s, user), s - {user})
  }

  /** A second `getAndClear` right after the first returns nothing and changes nothing. */
  lemma GetAndClearTwice(s: Store, user: string)
    ensures GetAndClear(GetAndClear(s, user).1, user).0 == []
    ensures GetAndClear(GetAndClear(s, user).1, user).1 == GetAndClear(s, user).1
  {
  }

  /** Lines added one after the other for the same user come back from `getAndClear` in the order they were added. */
  lemma {:induction false} AddAllThenGet(s: Store, user: string, lines: seq<string>)
    ensures GetAndClear(AddAll(s, user, lines), user).0 == Queue(s, user) + lines
    ensures forall u :: u != user ==> Queue(AddAll(s, user, lines), u) == Queue(s, u)
    decreases |lines|
  {
    if lines != [] {
      var init := lines[..|lines| - 1];
      AddAllThenGet(s, user, init);
      assert init + [lines[|lines| - 1]] == lines;
    }
  }

  /** `lines` queued for `user` one `addMessage` at a time, first line first. */
  function AddAll(s: Store, user: string, lines: seq<string>): Store
    decreases |lines|
  {
    if lines == [] then s
    else AddMessage(AddAll(s, user, lines[..|lines| - 1]), user, lines[|lines| - 1])
  }

  /** Java's `replace("\"", "\\\"")`: a backslash is put before every double quote. */
  function EscapeQuotes(m: string): (r: string)
    ensures |r| >= |m|
    ensures forall k :: 0 <= k < |r| && r[k] == '"' ==> k > 0 && r[k - 1] == '\\'
  {
    if m == [] then ""
    else if m[0] == '"' then "\\\"" + EscapeQuotes(m[1..])
    else [m[0]] + EscapeQuotes(m[1..])
  }

  /** Drops the backslash of every backslash-quote pair, reading left to right. */
  function UnescapeQuotes(e: string): string {
    if e == [] then ""
    else if |e| >= 2 && e[0] == '\\' && e[1] == '"' then "\"" + UnescapeQuotes(e[2..])
    else [e[0]] + UnescapeQuotes(e[1..])
  }

  /** The escaping in the writer loses nothing: every message can be recovered from its escaped form. */
  lemma {:induction false} EscapeIsLossless(m: string)
    ensures UnescapeQuotes(EscapeQuotes(m)) == m
  {
    if m != [] {
      EscapeIsLossless(m[1..]);
      var e := EscapeQuotes(m[1..]);
      if m[0] == '"' {
        assert EscapeQuotes(m) == "\\\"" + e;
        assert ("\\\"" + e)[2..] == e;
      } else {
        assert EscapeQuotes(m) == [m[0]] + e;
        assert ([m[0]] + e)[1..] == e;
        if m[0] == '\\' {
          EscapedHeadIsNotQuote(m[1..]);
        }
      }
    }
  }

  /** An escaped text never starts with a bare double quote. */
  lemma EscapedHeadIsNotQuote(m: string)
    ensures EscapeQuotes(m) == [] || EscapeQuotes(m)[0] != '"'
  {
  }

  /** The JSON array of one user's queue as `saveToFile` writes it: `["m1", "m2"]` with quotes escaped. */
  function QueueJson(msgs: seq<string>): string {
    "[" + JoinWith(", ", QuotedAll(msgs)) + "]"
  }

  function QuotedAll(msgs: seq<string>): (r: seq<string>)
    ensures |r| == |msgs|
    ensures forall i :: 0 <= i < |msgs| ==> r[i] == "\"" + EscapeQuotes(msgs[i]) + "\""
  {
    if msgs == [] then [] else ["\"" + EscapeQuotes(msgs[0]) + "\""] + QuotedAll(msgs[1..])
  }

  /** The `  "user": [...]` entry of one user. */
  function EntryJson(user: string, msgs: seq<string>): string {
    "  \"" + user + "\": " + QueueJson(msgs)
  }

  function EntriesJson(s: Store, order: seq<string>): seq<string>
    requires forall i :: 0 <= i < |order| ==> order[i] in s
  {
    if order == [] then [] else [EntryJson(order[0], s[order[0]])] + EntriesJson(s, order[1..])
  }

  /**
   * The text `saveToFile` writes: `{`, the entries separated by `,` and a
   * line break, `}`. The map's iteration order is not fixed in Java, so it
   * is the parameter `order`. The store reads its own file back with a
   * parser that expects a different layout, which is not part of this model.
   */
  function SaveJson(s: Store, order: seq<string>): (r: string)
    requires ListsKeys(order, s)
    ensures StartsWith(r, "{\n")
    ensures |r| >= 4 && r[|r| - 2..] == "\n}"
  {
    var body := JoinWith(",\n", EntriesJson(s, order));
    var r := "{\n" + body + "\n}";
    assert r[..2] == "{\n";
    assert r[|r| - 2..] == "\n}";
    r
  }
}

=== FILE: protocol.dfy ===
/**
 * What the two chat servers have in common on the wire: each connection is
 * a numbered line channel, every reply is a line sent to some connection,
 * and status replies are one-line JSON acknowledgements.
 */
module Protocol {
  import opened Strings
  import opened JsonScan

  /** Identifies one client connection (one `ClientHandler` and its socket). */
  type ConnId = nat

  /** One `println` of `line` on the output stream of connection `to`. */
  datatype Send = Send(to: ConnId, line: string)

  /**
   * Each line in turn, unchanged, to one connection: how both servers hand
   * a user the queued offline messages (`sendMessage` in a loop in
   * ChatServer, `deliverOfflineMessages` in RobustChatServer).
   */
  function SendAll(to: ConnId, lines: seq<string>): (r: seq<Send>)
    ensures |r| == |lines|
    ensures forall i :: 0 <= i < |lines| ==> r[i] == Send(to, lines[i])
  {
    if lines == [] then [] else [Send(to, lines[0])] + SendAll(to, lines[1..])
  }

  /**
   * The acknowledgement line `{"type":"ACK","code":<code>,"msg":"<msg>"}`
   * written by `sendResponse` in ChatServer and by `sendSuccess`,
   * `sendError` and `sendAuthError` (codes 200, 400 and 401) in
   * RobustChatServer. The message is pasted in without escaping.
   */
  function Ack(code: nat, msg: string): string {
    Object(AckMembers(code, msg))
  }

  function AckMembers(code: nat, msg: string): seq<Member> {
    [Member("type", "ACK", true), Member("code", NatToString(code), false), Member("msg", msg, true)]
  }

  lemma DigitsAreValue(code: nat)
    ensures NatToString(code) != [] && AllValueChars(NatToString(code)) && NoLineBreak(NatToString(code))
    ensures !IsRegexSpace(NatToString(code)[0])
  {
    var digits := NatToString(code);
    forall k | 0 <= k < |digits| ensures IsValueChar(digits[k]) && !IsLineBreak(digits[k]) {
      assert '0' <= digits[k] <= '9';
    }
    assert '0' <= digits[0] <= '9';
  }

  /**
   * Every acknowledgement reads back with the servers' own `extractValue`:
   * its `type` is `ACK` and its `code` the code; its `msg` is the message
   * when the message is non-empty and holds no quote, comma or closing brace.
   */
  lemma AckIsReadable(code: nat, msg: string)
    ensures ExtractValue(Ack(code, msg), "type") == "ACK"
    ensures ExtractValue(Ack(code, msg), "code") == NatToString(code)
    ensures msg != [] && AllValueChars(msg) ==> ExtractValue(Ack(code, msg), "msg") == msg
  {
    AckType(code, msg);
    AckCode(code, msg);
    if msg != [] && AllValueChars(msg) {
      AckMsg(code, msg);
    }
  }

  lemma AckType(code: nat, msg: string)
    ensures ExtractValue(Ack(code, msg), "type") == "ACK"
  {
    var ms := AckMembers(code, msg);
    assert Readable(ms[0]);
    ObjectField(ms, 0);
  }

  lemma AckCode(code: nat, msg: string)
    ensures ExtractValue(Ack(code, msg), "code") == NatToString(code)
  {
    var ms := AckMembers(code, msg);
    DigitsAreValue(code);
    assert Readable(ms[1]);
    assert Passes(ms[0], 'c');
    ObjectField(ms, 1);
  }

  lemma AckMsg(code: nat, msg: string)
    requires msg != [] && AllValueChars(msg)
    ensures ExtractValue(Ack(code, msg), "msg") == msg
  {
    var ms := AckMembers(code, msg);
    DigitsAreValue(code);
    assert Readable(ms[2]);
    assert Passes(ms[0], 'm');
    assert Passes(ms[1], 'm');
    ObjectField(ms, 2);
  }

  /** An acknowledgement is one line whenever its message is. */
  lemma AckIsOneLine(code: nat, msg: string)
    requires NoLineBreak(msg)
    ensures NoLineBreak(Ack(code, msg))
  {
    var ms := AckMembers(code, msg);
    DigitsAreValue(code);
    assert NoLineBreak(ms[0].key) && NoLineBreak(ms[0].value);
    assert NoLineBreak(ms[1].key) && NoLineBreak(ms[2].key);
    ObjectOneLine(ms);
  }
}

=== FILE: robust_chat_server.dfy ===
/**
 * RobustChatServer: a connection's first line is a handshake that must be a
 * `REGISTER:user:pass` line or a JSON LOGIN; only a connection it admits
 * reaches the message loop (MSG, PING, PUBLISH_VIDEO, GET_VIDEOS), and when
 * the connection ends its user is no longer online. The shared state of the
 * three singletons and the user table is one `Server` value.
 */
module RobustChatServer {
  import opened Wrappers
  import opened Strings
  import opened JsonScan
  import opened Protocol
  import opened UserTable
  import OfflineStore
  import VideoStore

  /**
   * `users`: `userDatabase`; `online`: `SessionManager` (user name -> the
   * connection of its handler); `offline`: `OfflineMessageStore`;
   * `videos`: `VideoStore`.
   */
  datatype Server = Server(users: UserDb, online: map<string, ConnId>,
                           offline: OfflineStore.Store, videos: VideoStore.Videos)

  /** The outcome of the handshake: the new state, the name the connection is now bound to (if any), the lines sent. */
  datatype Admission = Admission(server: Server, user: Option<string>, out: seq<Send>)

  /** The outcome of one line inside the message loop. */
  datatype Reply = Reply(server: Server, out: seq<Send>)

  const RegisterSuccess: string := "REGISTER_SUCCESS"
  const RegisterFailed: string := "REGISTER_FAILED"

  /**
   * The state `main` builds before accepting connections: users from the
   * user file (the three defaults when it is missing), the offline queues
   * as loaded, the videos read from the video file; nobody online.
   */
  function Start(usersFile: Option<string>, offline: OfflineStore.Store, videoFile: Option<string>): (r: Server)
    ensures r.online == map[] && r.offline == offline
    ensures usersFile.None? ==> r.users == Defaults
    ensures videoFile.None? ==> r.videos == []
  {
    Server(LoadRobust(usersFile), map[], offline, VideoStore.LoadVideos([], videoFile))
  }

  function Kind(line: string): string {
    ExtractValue(line, "type")
  }

  /** A `REGISTER:` line the handshake accepts: it splits into three parts and names a user not yet in the table. */
  predicate RegisterAccepted(s: Server, line: string) {
    var parts := SplitLimit(line, ':', 3);
    |parts| == 3 && parts[1] !in s.users
  }

  /** A LOGIN line the handshake accepts: a non-empty user name that is in the table with exactly this password. */
  predicate LoginAccepted(s: Server, line: string) {
    var user := ExtractValue(line, "user");
    user != "" && user in s.users && s.users[user] == ExtractValue(line, "pass")
  }

  /**
   * `handleRegisterSimple`: the line is split at its first two colons; a
   * line with fewer parts, or a name already taken, gets `REGISTER_FAILED`
   * and changes nothing. There is no check on the lengths. A new user is
   * put in the table AND logged in on this connection at once.
   */
  function HandleRegisterSimple(s: Server, id: ConnId, line: string): (r: Admission)
    ensures r.out == [Send(id, if RegisterAccepted(s, line) then RegisterSuccess else RegisterFailed)]
    ensures !RegisterAccepted(s, line) ==> r.server == s && r.user.None?
    ensures RegisterAccepted(s, line) ==>
              var parts := SplitLimit(line, ':', 3);
              && r.user == Some(parts[1])
              && r.server == s.(users := s.users[parts[1] := parts[2]], online := s.online[parts[1] := id])
  {
    var parts := SplitLimit(line, ':', 3);
    if |parts| != 3 then Admission(s, None, [Send(id, RegisterFailed)])
    else
      var uid := parts[1];
      var pwd := parts[2];
      if uid in s.users then Admission(s, None, [Send(id, RegisterFailed)])
      else
        Admission(s.(users := s.users[uid := pwd], online := s.online[uid := id]), Some(uid), [Send(id, RegisterSuccess)])
  }

  /**
   * `handleLogin`: an empty or missing user name, an unknown name and a
   * wrong password each get their own 401 and change nothing. On success
   * the name is bound to this connection, the 200 goes out, and then the
   * lines queued for the name, oldest first, after which its queue is gone.
   */
  function HandleLogin(s: Server, id: ConnId, line: string): (r: Admission)
    ensures r.server.users == s.users && r.server.videos == s.videos && r.out != []
    ensures r.user.Some? <==> LoginAccepted(s, line)
    ensures !LoginAccepted(s, line) ==> r.server == s && |r.out| == 1
    ensures ExtractValue(line, "user") == "" ==> r.out == [Send(id, Ack(401, "用户名不能为空"))]
    ensures ExtractValue(line, "user") != "" && ExtractValue(line, "user") !in s.users ==>
              r.out == [Send(id, Ack(401, "用户不存在"))]
    ensures ExtractValue(line, "user") in s.users - {""} && !LoginAccepted(s, line) ==>
              r.out == [Send(id, Ack(401, "密码错误"))]
    ensures LoginAccepted(s, line) ==>
              var user := ExtractValue(line, "user");
              && r.user == Some(user)
              && r.server.online == s.online[user := id]
              && r.out == [Send(id, Ack(200, "登录成功"))] + SendAll(id, OfflineStore.Queue(s.offline, user))
              && OfflineStore.Queue(r.server.offline, user) == []
              && forall u :: u != user ==> OfflineStore.Queue(r.server.offline, u) == OfflineStore.Queue(s.offline, u)
  {
    var user := ExtractValue(line, "user");
    var pass := ExtractValue(line, "pass");
    if user == "" then Admission(s, None, [Send(id, Ack(401, "用户名不能为空"))])
    else if user !in s.users then Admission(s, None, [Send(id, Ack(401, "用户不存在"))])
    else if s.users[user] != pass then Admission(s, None, [Send(id, Ack(401, "密码错误"))])
    else
      var (queued, offline) := OfflineStore.GetAndClear(s.offline, user);
      Admission(s.(online := s.online[user := id], offline := offline), Some(user),
                [Send(id, Ack(200, "登录成功"))] + SendAll(id, queued))
  }

  /** The first line admits the connection exactly when it is an accepted registration or an accepted login. */
  predicate Admits(s: Server, first: string) {
    if StartsWith(first, "REGISTER:") then RegisterAccepted(s, first)
    else Kind(first) == "LOGIN" && LoginAccepted(s, first)
  }

  /**
   * The handshake of `run`: a `REGISTER:` line registers, a LOGIN logs in,
   * and anything else gets a 400 and the connection is closed. A
   * connection that is not admitted leaves the state as it was and gets
   * exactly one reply.
   */
  function Handshake(s: Server, id: ConnId, first: string): (r: Admission)
    ensures r.user.Some? <==> Admits(s, first)
    ensures !Admits(s, first) ==> r.server == s && |r.out| == 1 && r.out[0].to == id
    ensures Admits(s, first) ==>
              && r.server.online == s.online[r.user.value := id]
              && r.server.videos == s.videos
              && s.users.Keys <= r.server.users.Keys
    ensures StartsWith(first, "REGISTER:") ==> r == HandleRegisterSimple(s, id, first)
    ensures !StartsWith(first, "REGISTER:") && Kind(first) == "LOGIN" ==> r == HandleLogin(s, id, first)
    ensures !StartsWith(first, "REGISTER:") && Kind(first) != "LOGIN" ==>
              r.out == [Send(id, Ack(400, "First message must be LOGIN or REGISTER"))]
  {
    if StartsWith(first, "REGISTER:") then HandleRegisterSimple(s, id, first)
    else if Kind(first) == "LOGIN" then HandleLogin(s, id, first)
    else Admission(s, None, [Send(id, Ack(400, "First message must be LOGIN or REGISTER"))])
  }

  /** A MSG line addressed to `u` while `u` is not online: it ends up in `u`'s queue. */
  predicate QueuedFor(online: map<string, ConnId>, line: string, u: string) {
    Kind(line) == "MSG" && ExtractValue(line, "to") == u && u !in online
  }

  /**
   * `handleChatMessage`: the raw line goes unchanged to the connection `to`
   * is bound to, or to the end of `to`'s queue when `to` is not online;
   * either way the sender gets a 200.
   */
  function HandleChat(s: Server, id: ConnId, line: string): (r: Reply)
    ensures r.server.users == s.users && r.server.online == s.online && r.server.videos == s.videos
    ensures var to := ExtractValue(line, "to");
            && (to in s.online ==>
                  r.server == s && r.out == [Send(s.online[to], line), Send(id, Ack(200, "消息已发送"))])
            && (to !in s.online ==>
                  r.server.offline == OfflineStore.AddMessage(s.offline, to, line)
                  && r.out == [Send(id, Ack(200, "对方离线，消息已暂存"))])
  {
    var to := ExtractValue(line, "to");
    if to in s.online then
      Reply(s, [Send(s.online[to], line), Send(id, Ack(200, "消息已发送"))])
    else
      Reply(s.(offline := OfflineStore.AddMessage(s.offline, to, line)), [Send(id, Ack(200, "对方离线，消息已暂存"))])
  }

  /**
   * `handleMessage` of an admitted connection, dispatched on `type`: MSG,
   * PING, PUBLISH_VIDEO (the whole line is stored as the video), GET_VIDEOS
   * (the stored videos in one reply), and a 400 naming any other type. No
   * line changes the user table or who is online; only a PUBLISH_VIDEO adds
   * a video and only a MSG to an offline user queues anything.
   */
  function HandleMessage(s: Server, id: ConnId, line: string): (r: Reply)
    ensures r.server.users == s.users && r.server.online == s.online
    ensures r.server.videos == s.videos + (if Kind(line) == "PUBLISH_VIDEO" then [line] else [])
    ensures forall u :: OfflineStore.Queue(r.server.offline, u) ==
                        OfflineStore.Queue(s.offline, u) + (if QueuedFor(s.online, line, u) then [line] else [])
    ensures 1 <= |r.out| <= 2
    ensures Kind(line) == "MSG" ==> r == HandleChat(s, id, line)
    ensures Kind(line) == "PING" ==> r == Reply(s, [Send(id, Ack(200, "PONG"))])
    ensures Kind(line) == "PUBLISH_VIDEO" ==> r.out == [Send(id, Ack(200, "视频发布成功"))]
    ensures Kind(line) != "MSG" && Kind(line) != "PUBLISH_VIDEO" ==> r.server == s
    ensures Kind(line) == "GET_VIDEOS" ==> r.out == [Send(id, VideoStore.VideoListReply(s.videos))]
    ensures Kind(line) !in {"MSG", "PING", "PUBLISH_VIDEO", "GET_VIDEOS"} ==>
              r.out == [Send(id, Ack(400, "未知消息类型: " + Kind(line)))]
  {
    var kind := Kind(line);
    if kind == "MSG" then HandleChat(s, id, line)
    else if kind == "PING" then Reply(s, [Send(id, Ack(200, "PONG"))])
    else if kind == "PUBLISH_VIDEO" then
      Reply(s.(videos := VideoStore.AddVideo(s.videos, line)), [Send(id, Ack(200, "视频发布成功"))])
    else if kind == "GET_VIDEOS" then Reply(s, [Send(id, VideoStore.VideoListReply(s.videos))])
    else Reply(s, [Send(id, Ack(400, "未知消息类型: " + kind))])
  }

  /** The PUBLISH_VIDEO lines among `lines`, in order. */
  function Published(lines: seq<string>): (r: seq<string>)
    ensures |r| <= |lines|
  {
    if lines == [] then []
    else
      var last := lines[|lines| - 1];
      Published(lines[..|lines| - 1]) + (if Kind(last) == "PUBLISH_VIDEO" then [last] else [])
  }

  /** The lines among `lines` that go to `u`'s queue, in order. */
  function QueuedLines(online: map<string, ConnId>, u: string, lines: seq<string>): (r: seq<string>)
    ensures |r| <= |lines|
  {
    if lines == [] then []
    else
      var last := lines[|lines| - 1];
      QueuedLines(online, u, lines[..|lines| - 1]) + (if QueuedFor(online, last, u) then [last] else [])
  }

  /**
   * The message loop of `run` over the lines an admitted connection sends
   * (other connections' lines are not interleaved here). The user table
   * and who is online stay as they were; the PUBLISH_VIDEO lines are added
   * to the videos in the order they came; every queue grows by exactly the
   * MSG lines addressed to that user while the user is offline, in order;
   * and every line gets one or two lines sent.
   */
  method Serve(s: Server, id: ConnId, lines: seq<string>) returns (r: Server, out: seq<Send>)
    ensures r.users == s.users && r.online == s.online
    ensures r.videos == s.videos + Published(lines)
    ensures forall u :: OfflineStore.Queue(r.offline, u) ==
                        OfflineStore.Queue(s.offline, u) + QueuedLines(s.online, u, lines)
    ensures |lines| <= |out| <= 2 * |lines|
  {
    r := s;
    out := [];
    var i := 0;
    while i < |lines|
      invariant 0 <= i <= |lines|
      invariant Served(s, r, lines[..i])
      invariant i <= |out| <= 2 * i
    {
      var sent;
      r, sent := ServeLine(s, r, id, lines, i);
      out := out + sent;
      i := i + 1;
    }
    assert lines[..|lines|] == lines;
  }

  /** One turn of the message loop: `HandleMessage` on line `i`, which carries `Served` one line further. */
  method ServeLine(s: Server, r: Server, id: ConnId, lines: seq<string>, i: nat) returns (next: Server, sent: seq<Send>)
    requires i < |lines| && Served(s, r, lines[..i])
    ensures Served(s, next, lines[..i + 1])
    ensures 1 <= |sent| <= 2
  {
    var step := HandleMessage(r, id, lines[i]);
    ServeStep(s, r, id, lines, i);
    next, sent := step.server, step.out;
  }

  /**
   * `r` is what the message loop makes of `s` after `lines`: same users and
   * online table, the published videos appended, each queue extended by
   * the lines queued for its user.
   */
  ghost predicate Served(s: Server, r: Server, lines: seq<string>) {
    && r.users == s.users && r.online == s.online
    && r.videos == s.videos + Published(lines)
    && forall u :: OfflineStore.Queue(r.offline, u) ==
                   OfflineStore.Queue(s.offline, u) + QueuedLines(s.online, u, lines)
  }

  /** One more line through `HandleMessage` keeps `Served` for one more line of the prefix. */
  lemma ServeStep(s: Server, r: Server, id: ConnId, lines: seq<string>, i: nat)
    requires i < |lines| && Served(s, r, lines[..i])
    ensures Served(s, HandleMessage(r, id, lines[i]).server, lines[..i + 1])
  {
    var line := lines[i];
    var next := HandleMessage(r, id, line).server;
    PublishedStep(lines, i);
    Assoc(s.videos, Published(lines[..i]), if Kind(line) == "PUBLISH_VIDEO" then [line] else []);
    QueueStep(s.offline, r.offline, next.offline, s.online, lines, i);
  }

  /** Extending the prefix by one line extends the published videos by that line or by nothing. */
  lemma {:induction false} PublishedStep(lines: seq<string>, i: nat)
    requires i < |lines|
    ensures Published(lines[..i + 1]) ==
            Published(lines[..i]) + (if Kind(lines[i]) == "PUBLISH_VIDEO" then [lines[i]] else [])
  {
    assert lines[..i + 1][..i] == lines[..i];
  }

  /** Extending the prefix by one line extends each user's queued lines by that line or by nothing. */
  lemma {:induction false} QueuedStep(online: map<string, ConnId>, u: string, lines: seq<string>, i: nat)
    requires i < |lines|
    ensures QueuedLines(online, u, lines[..i + 1]) ==
            QueuedLines(online, u, lines[..i]) + (if QueuedFor(online, lines[i], u) then [lines[i]] else [])
  {
    assert lines[..i + 1][..i] == lines[..i];
  }

  /** The queue invariant of `Serve` carried over one more line. */
  lemma {:induction false} QueueStep(base: OfflineStore.Store, before: OfflineStore.Store, after: OfflineStore.Store,
                  online: map<string, ConnId>, lines: seq<string>, i: nat)
    requires i < |lines|
    requires forall u :: OfflineStore.Queue(before, u) ==
                         OfflineStore.Queue(base, u) + QueuedLines(online, u, lines[..i])
    requires forall u :: OfflineStore.Queue(after, u) ==
                         OfflineStore.Queue(before, u) + (if QueuedFor(online, lines[i], u) then [lines[i]] else [])
    ensures forall u :: OfflineStore.Queue(after, u) ==
                        OfflineStore.Queue(base, u) + QueuedLines(online, u, lines[..i + 1])
  {
    forall u
      ensures OfflineStore.Queue(after, u) == OfflineStore.Queue(base, u) + QueuedLines(online, u, lines[..i + 1])
    {
      QueuedStep(online, u, lines, i);
      var extra := if QueuedFor(online, lines[i], u) then [lines[i]] else [];
      Assoc(OfflineStore.Queue(base, u), QueuedLines(online, u, lines[..i]), extra);
    }
  }

  /** `cleanup`: the connection's name, if it has one, is no longer online; nothing else changes. */
  function Cleanup(s: Server, user: Option<string>): (r: Server)
    ensures r.users == s.users && r.offline == s.offline && r.videos == s.videos
    ensures user.Some? ==> user.value !in r.online
    ensures forall u :: u in r.online ==> u in s.online && r.online[u] == s.online[u]
    ensures user.Some? ==> r.online == s.online - {user.value}
    ensures user.None? ==> r == s
  {
    match user
    case None => s
    case Some(u) => s.(online := s.online - {u})
  }

  /**
   * One connection from its first line to its end: no line at all does
   * nothing; a first line the handshake does not admit gets its one reply
   * and changes nothing; otherwise the rest of the lines go through the
   * message loop, and at the end the connection's user is not online.
   */
  method Session(s: Server, id: ConnId, lines: seq<string>) returns (r: Server, out: seq<Send>)
    ensures lines == [] ==> r == s && out == []
    ensures lines != [] && !Admits(s, lines[0]) ==> r == s && |out| == 1
    ensures lines != [] && Admits(s, lines[0]) ==>
              var a := Handshake(s, id, lines[0]);
              && a.user.value !in r.online
              && r.users == a.server.users
              && s.users.Keys <= r.users.Keys
              && r.online == a.server.online - {a.user.value}
              && r.videos == s.videos + Published(lines[1..])
              && (forall u :: OfflineStore.Queue(r.offline, u) ==
                              OfflineStore.Queue(a.server.offline, u) + QueuedLines(a.server.online, u, lines[1..]))
              && |out| >= |lines|
  {
    if lines == [] {
      return s, [];
    }
    var a := Handshake(s, id, lines[0]);
    if a.user.None? {
      return a.server, a.out;
    }
    var served, replies := Serve(a.server, id, lines[1..]);
    r := Cleanup(served, a.user);
    out := a.out + replies;
  }

  /**
   * A `REGISTER:user:pass` line with a colon-free name not yet taken is
   * always accepted, whatever the lengths, the new user is online on this
   * connection, and the password is taken whole, colons included.
   */
  lemma RegisterLine(s: Server, id: ConnId, user: string, pass: string)
    requires ':' !in user && user !in s.users
    ensures var r := Handshake(s, id, "REGISTER:" + user + ":" + pass);
            && r.out == [Send(id, RegisterSuccess)]
            && r.user == Some(user)
            && r.server.users == s.users[user := pass]
            && r.server.online == s.online[user := id]
  {
    var line := "REGISTER:" + user + ":" + pass;
    assert line == "REGISTER" + [':'] + user + [':'] + pass;
    SplitThreeOf("REGISTER", ':', user, pass);
    assert StartsWith(line, "REGISTER:");
  }

  /** A `REGISTER:` line for a name already in the table is refused and the connection is not admitted. */
  lemma RegisterTakenName(s: Server, id: ConnId, user: string, pass: string)
    requires ':' !in user && user in s.users
    ensures var r := Handshake(s, id, "REGISTER:" + user + ":" + pass);
            r == Admission(s, None, [Send(id, RegisterFailed)])
  {
    var line := "REGISTER:" + user + ":" + pass;
    assert line == "REGISTER" + [':'] + user + [':'] + pass;
    SplitThreeOf("REGISTER", ':', user, pass);
    assert StartsWith(line, "REGISTER:");
  }

  /** A `REGISTER:` line without a second colon is refused. */
  lemma RegisterWithoutPassword(s: Server, id: ConnId, rest: string)
    requires ':' !in rest
    ensures Handshake(s, id, "REGISTER:" + rest) == Admission(s, None, [Send(id, RegisterFailed)])
  {
    var line := "REGISTER:" + rest;
    assert line == "REGISTER" + [':'] + rest;
    SplitTwoOf("REGISTER", ':', rest);
    assert StartsWith(line, "REGISTER:");
  }

  /**
   * A video published on one connection is in the reply to a later
   * GET_VIDEOS on any connection, after all the videos published before it.
   */
  lemma PublishedVideoIsListed(s: Server, publisher: ConnId, video: string, asker: ConnId, query: string)
    requires Kind(video) == "PUBLISH_VIDEO" && Kind(query) == "GET_VIDEOS"
    ensures var after := HandleMessage(s, publisher, video).server;
            HandleMessage(after, asker, query).out == [Send(asker, VideoStore.VideoListReply(s.videos + [video]))]
  {
  }

  /**
   * Published videos survive a restart: the video file written at shutdown
   * is read back at the next start as exactly the same list, provided each
   * video line is one well-formed JSON object.
   */
  lemma VideosSurviveRestart(s: Server, usersFile: Option<string>, offline: OfflineStore.Store)
    requires forall i :: 0 <= i < |s.videos| ==> VideoStore.WellFormed(s.videos[i])
    ensures Start(usersFile, offline, Some(VideoStore.SaveVideos(s.videos))).videos == s.videos
  {
    VideoStore.SaveLoadRoundTrip([], s.videos);
    assert [] + s.videos == s.videos;
  }

  /**
   * Accounts survive a restart: the user file `saveUsersToFile` writes
   * after a registration is read back at the next start as exactly the
   * same table, whatever the iteration order and line separator, provided
   * no name holds a colon and no entry a line break.
   */
  lemma UsersSurviveRestart(db: UserDb, order: seq<string>, nl: LineSeparator,
                            offline: OfflineStore.Store, videoFile: Option<string>)
    requires ListsKeys(order, db)
    requires forall u :: u in db ==> ':' !in u && NoLineBreak(u) && NoLineBreak(db[u])
    ensures Start(Some(SaveUsers(db, order, nl)), offline, videoFile).users == db
  {
    SaveLoadRoundTrip(db, order, nl);
  }

  /**
   * A message sent to a user who is offline reaches that user, after the
   * lines queued before it, right behind the 200 of the user's next
   * accepted LOGIN handshake.
   */
  lemma QueuedUntilLogin(s: Server, sender: ConnId, msg: string, receiver: ConnId, login: string)
    requires Kind(msg) == "MSG" && ExtractValue(msg, "to") !in s.online
    requires !StartsWith(login, "REGISTER:") && Kind(login) == "LOGIN"
    requires ExtractValue(login, "user") == ExtractValue(msg, "to")
    requires LoginAccepted(s, login)
    ensures var to := ExtractValue(msg, "to");
            var sent := HandleMessage(s, sender, msg).server;
            Handshake(sent, receiver, login).out ==
              [Send(receiver, Ack(200, "登录成功"))] + SendAll(receiver, OfflineStore.Queue(s.offline, to) + [msg])
  {
    var to := ExtractValue(msg, "to");
    var sent := HandleMessage(s, sender, msg).server;
    assert OfflineStore.Queue(sent.offline, to) == OfflineStore.Queue(s.offline, to) + [msg];
    assert LoginAccepted(sent, login);
  }
}

=== FILE: strings.dfy ===
/**
 * The handful of `java.lang.String`, `Character` and `BufferedReader`
 * behaviours the servers rely on, written out over `seq<char>`.
 *
 * Java strings are sequences of UTF-16 code units; here a string is a
 * sequence of Dafny chars, and every separator the servers use is a single
 * ASCII character, so the splitting below is character-for-character the
 * same as the Java library's.
 */
module Strings {
  import opened Wrappers

  predicate StartsWith(s: string, prefix: string) {
    |prefix| <= |s| && s[..|prefix|] == prefix
  }

  /** Index of the first `c` in `s`, or `|s|` when `s` has none. */
  function IndexOf(s: string, c: char): (i: nat)
    ensures i <= |s|
    ensures i < |s| ==> s[i] == c
    ensures forall k :: 0 <= k < i ==> s[k] != c
  {
    if s == [] then 0
    else if s[0] == c then 0
    else 1 + IndexOf(s[1..], c)
  }

  /**
   * `s.split(c, 2)` for a one-character separator: the parts before and
   * after the FIRST `c`, or `None` when Java returns a single part.
   */
  function SplitAtFirst(s: string, c: char): (r: Option<(string, string)>)
    ensures r.None? <==> c !in s
    ensures r.Some? ==> s == r.value.0 + [c] + r.value.1 && c !in r.value.0
  {
    var i := IndexOf(s, c);
    if i == |s| then None else Some((s[..i], s[i + 1..]))
  }

  /** Cutting `a + [c] + b` at its first `c` gives back `a` and `b` when `a` holds no `c`. */
  lemma SplitAtFirstOf(a: string, c: char, b: string)
    requires c !in a
    ensures SplitAtFirst(a + [c] + b, c) == Some((a, b))
  {
    var s := a + [c] + b;
    assert forall k :: 0 <= k < |a| ==> s[k] == a[k];
    assert s[|a|] == c;
    assert IndexOf(s, c) == |a|;
    assert s[..|a|] == a;
    assert s[|a| + 1..] == b;
  }

  /** `split(c, 3)` of a text with two separating `c`s gives its three parts. */
  lemma SplitThreeOf(a: string, c: char, b: string, rest: string)
    requires c !in a && c !in b
    ensures SplitLimit(a + [c] + b + [c] + rest, c, 3) == [a, b, rest]
  {
    assert a + [c] + b + [c] + rest == a + [c] + (b + [c] + rest);
    SplitAtFirstOf(a, c, b + [c] + rest);
    SplitAtFirstOf(b, c, rest);
  }

  /** `split(c, 3)` of a text with only one `c` gives two parts. */
  lemma SplitTwoOf(a: string, c: char, b: string)
    requires c !in a && c !in b
    ensures SplitLimit(a + [c] + b, c, 3) == [a, b]
  {
    SplitAtFirstOf(a, c, b);
  }

  /** The parts separated by `sep`, as `String.join` writes them. */
  function JoinWith(sep: string, parts: seq<string>): string {
    if parts == [] then ""
    else if |parts| == 1 then parts[0]
    else parts[0] + sep + JoinWith(sep, parts[1..])
  }

  /**
   * `s.split(c, limit)` for a one-character separator and a positive limit:
   * `s` cut at its first `limit - 1` occurrences of `c`. Java keeps empty
   * parts (also trailing ones) when the limit is positive, and so does this.
   */
  function SplitLimit(s: string, c: char, limit: nat): (parts: seq<string>)
    requires limit >= 1
    ensures 1 <= |parts| <= limit
    ensures JoinWith([c], parts) == s
    ensures forall i :: 0 <= i < |parts| - 1 ==> c !in parts[i]
    ensures |parts| < limit ==> c !in parts[|parts| - 1]
    decreases limit
  {
    if limit == 1 then [s]
    else
      match SplitAtFirst(s, c)
      case None => [s]
      case Some((before, after)) =>
        var rest := SplitLimit(after, c, limit - 1);
        JoinCons([c], before, rest);
        [before] + rest
  }

  /** Joining a part in front of a non-empty list puts the separator between it and the rest. */
  lemma JoinCons(sep: string, p: string, ps: seq<string>)
    requires ps != []
    ensures JoinWith(sep, [p] + ps) == p + sep + JoinWith(sep, ps)
  {
    assert ([p] + ps)[1..] == ps;
  }

  lemma Assoc<T>(a: seq<T>, b: seq<T>, c: seq<T>)
    ensures a + (b + c) == a + b + c
  {
  }

  /**
   * Each key of `m` exactly once, and nothing else: one iteration order of
   * a Java hash map, which the writers take as a parameter.
   */
  predicate ListsKeys<V>(order: seq<string>, m: map<string, V>) {
    && (forall i, j :: 0 <= i < j < |order| ==> order[i] != order[j])
    && (forall u :: u in m ==> u in order)
    && (forall i :: 0 <= i < |order| ==> order[i] in m)
  }

  /** `String.trim()` drops leading and trailing chars at or below U+0020. */
  predicate IsTrimmable(c: char) {
    c <= ' '
  }

  predicate AllTrimmable(s: string) {
    forall k :: 0 <= k < |s| ==> IsTrimmable(s[k])
  }

  /** Neither end of `s` is a char `String.trim()` would drop. */
  predicate IsTrimmed(s: string) {
    s == [] || (!IsTrimmable(s[0]) && !IsTrimmable(s[|s| - 1]))
  }

  function TrimStart(s: string): string {
    if s != [] && IsTrimmable(s[0]) then TrimStart(s[1..]) else s
  }

  function TrimEnd(s: string): string {
    if s != [] && IsTrimmable(s[|s| - 1]) then TrimEnd(s[..|s| - 1]) else s
  }

  lemma TrimStartShape(s: string)
    ensures TrimStart(s) == [] <==> AllTrimmable(s)
    ensures TrimStart(s) == [] || !IsTrimmable(TrimStart(s)[0])
  {
  }

  lemma TrimEndShape(s: string)
    ensures TrimEnd(s) == [] || !IsTrimmable(TrimEnd(s)[|TrimEnd(s)| - 1])
    ensures TrimEnd(s) == [] <==> AllTrimmable(s)
    ensures TrimEnd(s) != [] ==> TrimEnd(s)[0] == s[0]
  {
  }

  /** Java's `s.trim()`. */
  function Trim(s: string): (r: string)
    ensures IsTrimmed(r)
    ensures r == [] <==> AllTrimmable(s)
  {
    TrimStartShape(s);
    TrimEndShape(TrimStart(s));
    TrimEnd(TrimStart(s))
  }

  lemma {:induction false} TrimStartPadded(a: string, s: string)
    requires AllTrimmable(a)
    requires s == [] || !IsTrimmable(s[0])
    ensures TrimStart(a + s) == s
    decreases |a|
  {
    if a != [] {
      assert (a + s)[1..] == a[1..] + s;
      TrimStartPadded(a[1..], s);
    } else {
      assert a + s == s;
    }
  }

  lemma {:induction false} TrimEndPadded(s: string, b: string)
    requires AllTrimmable(b)
    requires s == [] || !IsTrimmable(s[|s| - 1])
    ensures TrimEnd(s + b) == s
    decreases |b|
  {
    if b != [] {
      assert (s + b)[..|s + b| - 1] == s + b[..|b| - 1];
      TrimEndPadded(s, b[..|b| - 1]);
    } else {
      assert s + b == s;
    }
  }

  /** Trimming removes exactly the blank padding around an already trimmed core. */
  lemma TrimPadded(a: string, s: string, b: string)
    requires AllTrimmable(a) && AllTrimmable(b)
    requires IsTrimmed(s)
    ensures Trim(a + s + b) == s
  {
    assert a + s + b == a + (s + b);
    if s == [] {
      assert AllTrimmable(a + s + b);
    } else {
      TrimStartPadded(a, s + b);
    }
    TrimEndPadded(s, b);
  }

  /**
   * `Character.isWhitespace`: the Unicode space, line and paragraph
   * separators other than the no-break spaces, plus U+0009..U+000D and
   * U+001C..U+001F.
   */
  predicate IsJavaWhitespace(c: char) {
    var n := c as int;
    || n == 0x20
    || 0x09 <= n <= 0x0D
    || 0x1C <= n <= 0x1F
    || n == 0x1680
    || 0x2000 <= n <= 0x2006
    || 0x2008 <= n <= 0x200A
    || n == 0x2028 || n == 0x2029
    || n == 0x205F || n == 0x3000
  }

  /** The characters `BufferedReader.readLine` ends a line at. */
  predicate IsLineBreak(c: char) {
    c == '\n' || c == '\r'
  }

  predicate NoLineBreak(s: string) {
    forall k :: 0 <= k < |s| ==> !IsLineBreak(s[k])
  }

  lemma NoLineBreakAppend(a: string, b: string)
    ensures NoLineBreak(a + b) <==> NoLineBreak(a) && NoLineBreak(b)
  {
    if NoLineBreak(a) && NoLineBreak(b) {
      forall k | 0 <= k < |a + b| ensures !IsLineBreak((a + b)[k]) {
        if k < |a| { assert (a + b)[k] == a[k]; } else { assert (a + b)[k] == b[k - |a|]; }
      }
    }
    if NoLineBreak(a + b) {
      forall k | 0 <= k < |a| ensures !IsLineBreak(a[k]) { assert (a + b)[k] == a[k]; }
      forall k | 0 <= k < |b| ensures !IsLineBreak(b[k]) { assert (a + b)[|a| + k] == b[k]; }
    }
  }

  function LineEnd(s: string): (i: nat)
    ensures i <= |s|
    ensures i < |s| ==> IsLineBreak(s[i])
    ensures NoLineBreak(s[..i])
  {
    if s == [] || IsLineBreak(s[0]) then 0
    else
      var j := LineEnd(s[1..]);
      assert s[..1 + j] == [s[0]] + s[1..][..j];
      1 + j
  }

  /**
   * The lines `BufferedReader.readLine` returns one after the other until
   * it returns `null`: a line ends at `\n`, `\r` or `\r\n`, and text after
   * the last terminator is a final line of its own.
   */
  function ReadLines(s: string): (lines: seq<string>)
    ensures forall i :: 0 <= i < |lines| ==> NoLineBreak(lines[i])
    ensures lines == [] <==> s == []
    decreases |s|
  {
    if s == [] then []
    else
      var i := LineEnd(s);
      if i == |s| then [s]
      else
        var next := if s[i] == '\r' && i + 1 < |s| && s[i + 1] == '\n' then i + 2 else i + 1;
        [s[..i]] + ReadLines(s[next..])
  }

  /** `System.lineSeparator()`, which `println` writes after each line: `\n`, or `\r\n` on Windows. */
  datatype LineSeparator = Lf | CrLf

  function SeparatorText(nl: LineSeparator): string {
    match nl
    case Lf => "\n"
    case CrLf => "\r\n"
  }

  /** What `PrintWriter.println` writes for each line in turn, on a platform whose separator is `nl`. */
  function WriteLines(lines: seq<string>, nl: LineSeparator): string {
    if lines == [] then "" else lines[0] + SeparatorText(nl) + WriteLines(lines[1..], nl)
  }

  /**
   * Reading back lines written with `println` gives the same lines, with
   * either line separator, provided none holds a line break.
   */
  lemma {:induction false} ReadWriteLines(lines: seq<string>, nl: LineSeparator)
    requires forall i :: 0 <= i < |lines| ==> NoLineBreak(lines[i])
    ensures ReadLines(WriteLines(lines, nl)) == lines
  {
    if lines != [] {
      var s := WriteLines(lines, nl);
      var l := lines[0];
      var sep := SeparatorText(nl);
      var tail := WriteLines(lines[1..], nl);
      assert s == l + (sep + tail);
      LineEndAt(l, sep + tail);
      assert s[..|l|] == l;
      assert s[|l|..] == sep + tail;
      if nl.Lf? {
        assert s[|l|] == '\n';
        assert s[|l| + 1..] == tail;
      } else {
        assert s[|l|] == '\r' && s[|l| + 1] == '\n';
        assert s[|l| + 2..] == tail;
      }
      ReadWriteLines(lines[1..], nl);
    }
  }

  lemma {:induction false} LineEndAt(l: string, rest: string)
    requires NoLineBreak(l)
    requires rest != [] && IsLineBreak(rest[0])
    ensures LineEnd(l + rest) == |l|
  {
    if l != [] {
      assert (l + rest)[1..] == l[1..] + rest;
      LineEndAt(l[1..], rest);
    } else {
      assert l + rest == rest;
    }
  }

  function DigitChar(d: nat): (c: char)
    requires d < 10
    ensures '0' <= c <= '9'
  {
    ('0' as int + d) as char
  }

  /** `Integer.toString` for a non-negative number: its decimal digits, most significant first. */
  function NatToString(n: nat): (r: string)
    ensures 1 <= |r|
    ensures forall i :: 0 <= i < |r| ==> '0' <= r[i] <= '9'
  {
    if n < 10 then [DigitChar(n)] else NatToString(n / 10) + [DigitChar(n % 10)]
  }
}

=== FILE: upload_form.dfy ===
/**
 * What the two upload servlets share once the multipart parsing is taken
 * away: the parsed request is a list of items, each either a form field or
 * a file under some field name; the answer is the files written and the
 * JSON text printed as the response body.
 */
module UploadForm {
  import opened Wrappers
  import opened Strings
  import opened JsonScan

  /** One parsed multipart item: `isFormField()` and `getFieldName()`. */
  datatype Item = Item(isFormField: bool, fieldName: string)

  /**
   * The request as the servlets see it: whether it is multipart, the items
   * the upload library parsed out of it, and `getServerName()` /
   * `getServerPort()`.
   */
  datatype Request = Request(multipart: bool, items: seq<Item>, serverName: string, serverPort: nat)

  /** `item.write(...)` of the item at index `item` to the file `name` in directory `dir`. */
  datatype SavedFile = SavedFile(item: nat, dir: string, name: string)

  /** The files written, in order, and what was printed as the body (`None` when nothing was). */
  datatype Response = Response(saved: seq<SavedFile>, body: Option<string>)

  /** A file item (not a form field) sent under field name `name`. */
  predicate IsFileNamed(it: Item, name: string) {
    !it.isFormField && it.fieldName == name
  }

  predicate HasFile(items: seq<Item>, name: string) {
    exists k :: 0 <= k < |items| && IsFileNamed(items[k], name)
  }

  /** `"http://" + getServerName() + ":" + getServerPort()`. */
  function ServerUrl(req: Request): string {
    "http://" + req.serverName + ":" + NatToString(req.serverPort)
  }

  /** The public URL of `fileName` saved in directory `dir`. */
  function FileUrl(req: Request, dir: string, fileName: string): string {
    ServerUrl(req) + "/" + dir + "/" + fileName
  }

  /** `sendErrorResponse` (the same in both servlets): `{"status":"error","url":null,"message":"<message>"}`. */
  function ErrorBody(message: string): string {
    Object([Member("status", "error", true), Member("url", "null", false), Member("message", message, true)])
  }

  /**
   * Every error body, read with the chat servers' `extractValue`, has
   * status `error` and url `null`, whatever the message says.
   */
  lemma ErrorBodyFields(message: string)
    ensures ExtractValue(ErrorBody(message), "status") == "error"
    ensures ExtractValue(ErrorBody(message), "url") == "null"
  {
    var ms := [Member("status", "error", true), Member("url", "null", false), Member("message", message, true)];
    assert Readable(ms[0]) && Readable(ms[1]);
    assert Passes(ms[0], 'u');
    ObjectField(ms, 0);
    ObjectField(ms, 1);
  }

  /** The URL of a file is made of value characters when the host name and the file name are. */
  lemma FileUrlIsValue(req: Request, dir: string, fileName: string)
    requires AllValueChars(req.serverName) && AllValueChars(dir) && AllValueChars(fileName)
    ensures AllValueChars(FileUrl(req, dir, fileName)) && FileUrl(req, dir, fileName) != []
  {
    var port := NatToString(req.serverPort);
    assert AllValueChars(port) by {
      forall k | 0 <= k < |port| ensures IsValueChar(port[k]) {
        assert '0' <= port[k] <= '9';
      }
    }
    AllValueCharsAppend("http://", req.serverName);
    AllValueCharsAppend("http://" + req.serverName, ":");
    AllValueCharsAppend("http://" + req.serverName + ":", port);
    AllValueCharsAppend(ServerUrl(req), "/");
    AllValueCharsAppend(ServerUrl(req) + "/", dir);
    AllValueCharsAppend(ServerUrl(req) + "/" + dir, "/");
    AllValueCharsAppend(ServerUrl(req) + "/" + dir + "/", fileName);
  }
}

=== FILE: upload_servlet.dfy ===
/**
 * UploadServlet (the Jakarta one): one request draws one id; every file
 * item named `video` is written as `<id>.mp4` under `videos`, every file
 * item named `cover` as `<id>.jpg` under `covers`, everything else is
 * skipped; the body reports success exactly when a video was among them.
 * The id (`UUID.randomUUID()`) is a parameter.
 */
module UploadServlet {
  import opened Wrappers
  import opened Strings
  import opened JsonScan
  import opened UploadForm

  const VideoDir: string := "videos"
  const CoverDir: string := "covers"

  function VideoName(id: string): string { id + ".mp4" }
  function CoverName(id: string): string { id + ".jpg" }

  /** What one item makes the loop write, if anything. */
  function WriteFor(k: nat, it: Item, id: string): seq<SavedFile> {
    if IsFileNamed(it, "video") then [SavedFile(k, VideoDir, VideoName(id))]
    else if IsFileNamed(it, "cover") then [SavedFile(k, CoverDir, CoverName(id))]
    else []
  }

  /**
   * The files the item loop writes for `items`, in item order: what
   * `WriteFor` says for each item in turn (see `WritesSound`,
   * `WritesComplete` and `WritesOrdered`).
   */
  function Writes(items: seq<Item>, id: string): (r: seq<SavedFile>)
    ensures |r| <= |items|
  {
    if items == [] then []
    else
      var n := |items| - 1;
      Writes(items[..n], id) + WriteFor(n, items[n], id)
  }

  /**
   * `w` is a file the item loop may write for `items`: it comes from a
   * video or cover file item, is named after the request's one id, and
   * goes to the directory its field name calls for.
   */
  predicate FromItem(items: seq<Item>, id: string, w: SavedFile) {
    && w.item < |items|
    && (IsFileNamed(items[w.item], "video") ==> w == SavedFile(w.item, VideoDir, VideoName(id)))
    && (IsFileNamed(items[w.item], "cover") ==> w == SavedFile(w.item, CoverDir, CoverName(id)))
    && (IsFileNamed(items[w.item], "video") || IsFileNamed(items[w.item], "cover"))
  }

  /** Every file written is one the items call for. */
  lemma {:induction false} WritesSound(items: seq<Item>, id: string)
    ensures forall w :: w in Writes(items, id) ==> FromItem(items, id, w)
  {
    if items != [] {
      var n := |items| - 1;
      var init := items[..n];
      WritesSound(init, id);
      forall w | w in Writes(items, id)
        ensures FromItem(items, id, w)
      {
        if w in Writes(init, id) {
          assert FromItem(init, id, w);
          assert items[w.item] == init[w.item];
        } else {
          assert w in WriteFor(n, items[n], id);
        }
      }
    }
  }

  /** Every video file item and every cover file item gets its file written. */
  lemma {:induction false} WritesComplete(items: seq<Item>, id: string)
    ensures forall k :: 0 <= k < |items| && IsFileNamed(items[k], "video") ==>
              SavedFile(k, VideoDir, VideoName(id)) in Writes(items, id)
    ensures forall k :: 0 <= k < |items| && IsFileNamed(items[k], "cover") ==>
              SavedFile(k, CoverDir, CoverName(id)) in Writes(items, id)
  {
    if items != [] {
      var n := |items| - 1;
      var init := items[..n];
      WritesComplete(init, id);
      assert forall k :: 0 <= k < n ==> items[k] == init[k];
    }
  }

  /** The files are written in the order of their items, each item at most once. */
  lemma {:induction false} WritesOrdered(items: seq<Item>, id: string)
    ensures forall a, b :: 0 <= a < b < |Writes(items, id)| ==> Writes(items, id)[a].item < Writes(items, id)[b].item
  {
    if items != [] {
      var n := |items| - 1;
      var init := items[..n];
      var before := Writes(init, id);
      var r := Writes(items, id);
      WritesOrdered(init, id);
      WritesSound(init, id);
      forall a, b | 0 <= a < b < |r|
        ensures r[a].item < r[b].item
      {
        if b >= |before| {
          assert r[b] in WriteFor(n, items[n], id);
          assert r[a] == before[a] && before[a] in before;
        }
      }
    }
  }

  /** The `coverUrl` member of the success body: the quoted cover URL, or a bare `null`. */
  function CoverMember(coverUrl: Option<string>): Member {
    match coverUrl
    case Some(c) => Member("coverUrl", c, true)
    case None => Member("coverUrl", "null", false)
  }

  /**
   * `sendSuccessResponse`: `{"status":"success","url":"<url>","coverUrl":...,"message":"Upload success"}`
   * with the `coverUrl` member as `CoverMember` writes it.
   */
  function SuccessBody(url: string, coverUrl: Option<string>): string {
    Object(SuccessMembers(url, coverUrl))
  }

  function SuccessMembers(url: string, coverUrl: Option<string>): seq<Member> {
    [Member("status", "success", true), Member("url", url, true), CoverMember(coverUrl),
     Member("message", "Upload success", true)]
  }

  /** `doPost` for a request that is multipart and has items, after the loop: success exactly when a video came. */
  function Outcome(req: Request, id: string): string {
    if HasFile(req.items, "video") then
      SuccessBody(FileUrl(req, VideoDir, VideoName(id)),
                  if HasFile(req.items, "cover") then Some(FileUrl(req, CoverDir, CoverName(id))) else None)
    else ErrorBody("No video file found")
  }

  /**
   * `doPost`: a request that is not multipart, or has no items, gets its
   * error and nothing is written. Otherwise the loop goes over the items in
   * order, writing the video and cover files and remembering their URLs;
   * after it, the body is a success carrying the video URL (and the cover
   * URL, or `null` when no cover came) if a video came, and the error
   * `No video file found` if not, even though covers may have been written.
   */
  method DoPost(req: Request, id: string) returns (r: Response)
    ensures !req.multipart ==> r == Response([], Some(ErrorBody("Request must be multipart")))
    ensures req.multipart && req.items == [] ==> r == Response([], Some(ErrorBody("No file found")))
    ensures req.multipart && req.items != [] ==>
              r == Response(Writes(req.items, id), Some(Outcome(req, id)))
  {
    if !req.multipart {
      return Response([], Some(ErrorBody("Request must be multipart")));
    }
    if |req.items| == 0 {
      return Response([], Some(ErrorBody("No file found")));
    }
    var items := req.items;
    var saved: seq<SavedFile> := [];
    var videoUrl: Option<string> := None;
    var coverUrl: Option<string> := None;
    var i := 0;
    while i < |items|
      invariant 0 <= i <= |items|
      invariant saved == Writes(items[..i], id)
      invariant videoUrl == if HasFile(items[..i], "video") then Some(FileUrl(req, VideoDir, VideoName(id))) else None
      invariant coverUrl == if HasFile(items[..i], "cover") then Some(FileUrl(req, CoverDir, CoverName(id))) else None
    {
      var item := items[i];
      assert items[..i + 1][..i] == items[..i];
      HasFileStep(items, i, "video");
      HasFileStep(items, i, "cover");
      if !item.isFormField {
        if item.fieldName == "video" {
          saved := saved + [SavedFile(i, VideoDir, VideoName(id))];
          videoUrl := Some(FileUrl(req, VideoDir, VideoName(id)));
        } else if item.fieldName == "cover" {
          saved := saved + [SavedFile(i, CoverDir, CoverName(id))];
          coverUrl := Some(FileUrl(req, CoverDir, CoverName(id)));
        }
      }
      i := i + 1;
    }
    assert items[..|items|] == items;
    if videoUrl.Some? {
      r := Response(saved, Some(SuccessBody(videoUrl.value, coverUrl)));
    } else {
      r := Response(saved, Some(ErrorBody("No video file found")));
    }
  }

  lemma HasFileStep(items: seq<Item>, i: nat, name: string)
    requires i < |items|
    ensures HasFile(items[..i + 1], name) <==> HasFile(items[..i], name) || IsFileNamed(items[i], name)
  {
    var next := items[..i + 1];
    if HasFile(next, name) && !IsFileNamed(items[i], name) {
      var k :| 0 <= k < |next| && IsFileNamed(next[k], name);
      assert k < i && items[..i][k] == next[k];
    }
    if HasFile(items[..i], name) {
      var k :| 0 <= k < i && IsFileNamed(items[..i][k], name);
      assert next[k] == items[..i][k];
    }
    if IsFileNamed(items[i], name) {
      assert next[i] == items[i];
    }
  }

  /**
   * The success body's `status` reads as `success`, and its `url` as the
   * video URL, with the chat servers' `extractValue`, when the host name
   * and the id hold no quote, comma or closing brace.
   */
  lemma SuccessBodyFields(req: Request, id: string, coverUrl: Option<string>)
    requires AllValueChars(req.serverName) && AllValueChars(id)
    ensures var body := SuccessBody(FileUrl(req, VideoDir, VideoName(id)), coverUrl);
            && ExtractValue(body, "status") == "success"
            && ExtractValue(body, "url") == FileUrl(req, VideoDir, VideoName(id))
  {
    var url := FileUrl(req, VideoDir, VideoName(id));
    AllValueCharsAppend(id, ".mp4");
    FileUrlIsValue(req, VideoDir, VideoName(id));
    var ms := SuccessMembers(url, coverUrl);
    assert Readable(ms[0]) && Readable(ms[1]);
    assert Passes(ms[0], 'u');
    ObjectField(ms, 0);
    ObjectField(ms, 1);
  }

  /** The `coverUrl` member of a success body reads back as the cover URL, or as `null` when there is none. */
  lemma CoverFieldReads(url: string, coverUrl: Option<string>)
    requires url != [] && url[0] != 'c' && AllValueChars(url)
    requires coverUrl.Some? ==> coverUrl.value != [] && AllValueChars(coverUrl.value)
    ensures ExtractValue(SuccessBody(url, coverUrl), "coverUrl") == if coverUrl.Some? then coverUrl.value else "null"
  {
    var ms := SuccessMembers(url, coverUrl);
    assert Readable(ms[2]);
    assert Passes(ms[0], 'c') && Passes(ms[1], 'c');
    ObjectField(ms, 2);
  }

  /**
   * `coverUrl` reads back as the cover URL when a cover came and as a bare
   * `null` exactly when none did.
   */
  lemma CoverUrlField(req: Request, id: string)
    requires HasFile(req.items, "video")
    requires AllValueChars(req.serverName) && AllValueChars(id)
    ensures ExtractValue(Outcome(req, id), "coverUrl") ==
            if HasFile(req.items, "cover") then FileUrl(req, CoverDir, CoverName(id)) else "null"
  {
    var url := FileUrl(req, VideoDir, VideoName(id));
    AllValueCharsAppend(id, ".mp4");
    FileUrlIsValue(req, VideoDir, VideoName(id));
    assert url[0] == 'h';
    AllValueCharsAppend(id, ".jpg");
    FileUrlIsValue(req, CoverDir, CoverName(id));
    CoverFieldReads(url, if HasFile(req.items, "cover") then Some(FileUrl(req, CoverDir, CoverName(id))) else None);
  }

  /** Cover files are written even when no video came, and the reply is then the `No video file found` error. */
  lemma CoverWithoutVideo(req: Request, id: string)
    requires req.multipart && !HasFile(req.items, "video") && HasFile(req.items, "cover")
    ensures Outcome(req, id) == ErrorBody("No video file found")
    ensures exists j :: 0 <= j < |Writes(req.items, id)| && Writes(req.items, id)[j].dir == CoverDir
  {
    var k :| 0 <= k < |req.items| && IsFileNamed(req.items[k], "cover");
    var w := Writes(req.items, id);
    WritesComplete(req.items, id);
    assert SavedFile(k, CoverDir, CoverName(id)) in w;
  }
}

=== FILE: upload_servlet_java11.dfy ===
/**
 * UploadServletJava11 (the javax one): the first file item of the request,
 * whatever its field name, is written as a fresh `<id>.mp4` under
 * `videos` and answered at once; later items are never looked at. The
 * fresh id (`UUID.randomUUID()`, drawn only when a file item is reached)
 * is a parameter.
 */
module UploadServletJava11 {
  import opened Wrappers
  import opened Strings
  import opened JsonScan
  import opened UploadForm

  const VideoDir: string := "videos"

  /** The index of the first item that is not a form field, if there is one. */
  function FirstFile(items: seq<Item>): (r: Option<nat>)
    ensures r.None? <==> forall j :: 0 <= j < |items| ==> items[j].isFormField
    ensures r.Some? ==> r.value < |items| && !items[r.value].isFormField
    ensures r.Some? ==> forall j :: 0 <= j < r.value ==> items[j].isFormField
  {
    if items == [] then None
    else if !items[0].isFormField then Some(0)
    else match FirstFile(items[1..])
      case None => None
      case Some(k) => Some(k + 1)
  }

  /** `sendSuccessResponse`: `{"status":"success","url":"<url>","message":"Upload success"}`; there is no cover here. */
  function SuccessBody(url: string): string {
    Object(SuccessMembers(url))
  }

  function SuccessMembers(url: string): seq<Member> {
    [Member("status", "success", true), Member("url", url, true), Member("message", "Upload success", true)]
  }

  /**
   * `doPost`: a request that is not multipart, or has no items, gets its
   * error. Otherwise the items are gone through in order up to the first
   * file: that one item is written as `<id>.mp4` under `videos` and the
   * success body names its URL. A request whose items are all form fields
   * falls out of the loop and gets no body at all.
   */
  method DoPost(req: Request, id: string) returns (r: Response)
    ensures !req.multipart ==> r == Response([], Some(ErrorBody("Request must be multipart")))
    ensures req.multipart && req.items == [] ==> r == Response([], Some(ErrorBody("No file found")))
    ensures req.multipart && req.items != [] && FirstFile(req.items).None? ==> r == Response([], None)
    ensures req.multipart && FirstFile(req.items).Some? ==>
              r == Response([SavedFile(FirstFile(req.items).value, VideoDir, id + ".mp4")],
                            Some(SuccessBody(FileUrl(req, VideoDir, id + ".mp4"))))
  {
    if !req.multipart {
      return Response([], Some(ErrorBody("Request must be multipart")));
    }
    if |req.items| == 0 {
      return Response([], Some(ErrorBody("No file found")));
    }
    var items := req.items;
    var i := 0;
    while i < |items|
      invariant 0 <= i <= |items|
      invariant forall j :: 0 <= j < i ==> items[j].isFormField
    {
      if !items[i].isFormField {
        FirstFileAt(items, i);
        var fileName := id + ".mp4";
        return Response([SavedFile(i, VideoDir, fileName)], Some(SuccessBody(FileUrl(req, VideoDir, fileName))));
      }
      i := i + 1;
    }
    r := Response([], None);
  }

  /** The first item that is not a form field is the first file. */
  lemma FirstFileAt(items: seq<Item>, i: nat)
    requires i < |items| && !items[i].isFormField
    requires forall j :: 0 <= j < i ==> items[j].isFormField
    ensures FirstFile(items) == Some(i)
  {
  }

  /**
   * The success body's `status` reads as `success` and its `url` as the
   * file's URL with the chat servers' `extractValue`, when the URL holds
   * no quote, comma or closing brace.
   */
  lemma SuccessBodyFields(url: string)
    requires url != [] && AllValueChars(url)
    ensures ExtractValue(SuccessBody(url), "status") == "success"
    ensures ExtractValue(SuccessBody(url), "url") == url
  {
    var ms := SuccessMembers(url);
    assert Readable(ms[0]) && Readable(ms[1]);
    assert Passes(ms[0], 'u');
    ObjectField(ms, 0);
    ObjectField(ms, 1);
  }

  /** Items after the first file never matter: appending any items leaves the first file where it was. */
  lemma {:induction false} LaterItemsIgnored(items: seq<Item>, more: seq<Item>)
    requires FirstFile(items).Some?
    ensures FirstFile(items + more) == FirstFile(items)
  {
    if items[0].isFormField {
      assert (items + more)[1..] == items[1..] + more;
      LaterItemsIgnored(items[1..], more);
    }
  }
}

=== FILE: user_table.dfy ===
/**
 * The user table (user name -> password) and its `users.txt` file, one
 * `name:password` line per user. Both servers write the file the same way;
 * they differ in what a missing file means.
 */
module UserTable {
  import opened Wrappers
  import opened Strings

  type UserDb = map<string, string>

  /** The three accounts both servers start from when there is no user file. */
  const Defaults: UserDb := map["user1" := "123", "user2" := "123", "admin" := "admin"]

  /** One line of `users.txt`. */
  function EntryLine(name: string, password: string): string {
    name + ":" + password
  }

  function EntryLines(db: UserDb, order: seq<string>): (lines: seq<string>)
    requires forall i :: 0 <= i < |order| ==> order[i] in db
    ensures |lines| == |order|
    ensures forall i :: 0 <= i < |order| ==> lines[i] == EntryLine(order[i], db[order[i]])
  {
    if order == [] then [] else [EntryLine(order[0], db[order[0]])] + EntryLines(db, order[1..])
  }

  /**
   * `saveUsersToFile`: one `println(name + ":" + password)` per entry. The
   * hash map's iteration order is not fixed in Java, so it is the
   * parameter `order`; the platform's line separator is `nl`.
   */
  function SaveUsers(db: UserDb, order: seq<string>, nl: LineSeparator): string
    requires ListsKeys(order, db)
  {
    WriteLines(EntryLines(db, order), nl)
  }

  /**
   * Read back line by line, the saved file holds exactly one line per
   * entry, in the order written, unless some name or password holds a
   * line break of its own.
   */
  lemma SaveUsersReadsBack(db: UserDb, order: seq<string>, nl: LineSeparator)
    requires ListsKeys(order, db)
    requires forall u :: u in db ==> NoLineBreak(u) && NoLineBreak(db[u])
    ensures ReadLines(SaveUsers(db, order, nl)) == EntryLines(db, order)
  {
    EntryLinesAreLines(db, order);
    ReadWriteLines(EntryLines(db, order), nl);
  }

  lemma EntryLinesAreLines(db: UserDb, order: seq<string>)
    requires forall i :: 0 <= i < |order| ==> order[i] in db
    requires forall u :: u in db ==> NoLineBreak(u) && NoLineBreak(db[u])
    ensures forall i :: 0 <= i < |order| ==> NoLineBreak(EntryLines(db, order)[i])
  {
    forall i | 0 <= i < |order| ensures NoLineBreak(EntryLines(db, order)[i]) {
      var u := order[i];
      NoLineBreakAppend(u, ":");
      NoLineBreakAppend(u + ":", db[u]);
    }
  }

  /**
   * The loop of `loadUsersFromFile` over the lines of the file: a line is
   * cut at its FIRST colon into name and password and put into the table
   * (a later line for the same name wins); a line without a colon is skipped.
   */
  function LoadLines(db: UserDb, lines: seq<string>): (r: UserDb)
    ensures db.Keys <= r.Keys
    decreases |lines|
  {
    if lines == [] then db
    else
      match SplitAtFirst(lines[0], ':')
      case None => LoadLines(db, lines[1..])
      case Some((name, password)) => LoadLines(db[name := password], lines[1..])
  }

  /**
   * RobustChatServer's `loadUsersFromFile` (the table starts empty): with
   * no file the table is exactly the three default accounts (the server
   * then writes them out); otherwise it holds what the file's lines say.
   */
  function LoadRobust(file: Option<string>): (db: UserDb)
    ensures file.None? ==> db == Defaults
  {
    match file
    case None => Defaults
    case Some(content) => LoadLines(map[], ReadLines(content))
  }

  /**
   * ChatServer's start-up: its static initialiser puts the three default
   * accounts in the table, and `loadUsersFromFile` then lays the file's
   * lines over them; a missing file leaves the defaults alone.
   */
  function LoadChat(file: Option<string>): (db: UserDb)
    ensures Defaults.Keys <= db.Keys
    ensures file.None? ==> db == Defaults
  {
    match file
    case None => Defaults
    case Some(content) => LoadLines(Defaults, ReadLines(content))
  }

  /** Loading two runs of lines one after the other is loading the second over the result of the first. */
  lemma {:induction false} LoadAppend(db: UserDb, a: seq<string>, b: seq<string>)
    ensures LoadLines(db, a + b) == LoadLines(LoadLines(db, a), b)
    decreases |a|
  {
    if a != [] {
      assert (a + b)[0] == a[0] && (a + b)[1..] == a[1..] + b;
      match SplitAtFirst(a[0], ':')
      case None => LoadAppend(db, a[1..], b);
      case Some((name, password)) => LoadAppend(db[name := password], a[1..], b);
    } else {
      assert a + b == b;
    }
  }

  /** A line without a colon, wherever it stands in the file, changes nothing. */
  lemma LoadSkipsLineWithoutColon(db: UserDb, a: seq<string>, line: string, b: seq<string>)
    requires ':' !in line
    ensures LoadLines(db, a + [line] + b) == LoadLines(db, a + b)
  {
    LoadAppend(db, a, [line] + b);
    LoadAppend(db, a, b);
    assert a + [line] + b == a + ([line] + b);
    assert ([line] + b)[0] == line && ([line] + b)[1..] == b;
  }

  /** A line is cut at its first colon only, so a password read from the file may itself hold colons. */
  lemma PasswordMayHoldColons(name: string, password: string)
    requires ':' !in name
    ensures LoadLines(map[], [EntryLine(name, password)]) == map[name := password]
  {
    SplitOfEntry(name, password);
  }

  /** Loading the lines the saver writes lays exactly the saved entries over the starting table. */
  lemma {:induction false} LoadEntryLines(base: UserDb, db: UserDb, order: seq<string>)
    requires forall i :: 0 <= i < |order| ==> order[i] in db && ':' !in order[i]
    ensures forall u :: u in LoadLines(base, EntryLines(db, order)) <==> u in base || u in order
    ensures forall u :: u in order ==> LoadLines(base, EntryLines(db, order))[u] == db[u]
    ensures forall u :: u in base && u !in order ==> LoadLines(base, EntryLines(db, order))[u] == base[u]
    decreases |order|
  {
    if order != [] {
      var u := order[0];
      var lines := EntryLines(db, order);
      SplitOfEntry(u, db[u]);
      assert lines[1..] == EntryLines(db, order[1..]);
      assert LoadLines(base, lines) == LoadLines(base[u := db[u]], lines[1..]);
      LoadEntryLines(base[u := db[u]], db, order[1..]);
      assert forall v :: v in order <==> v == u || v in order[1..];
    }
  }

  lemma SplitOfEntry(name: string, password: string)
    requires ':' !in name
    ensures SplitAtFirst(EntryLine(name, password), ':') == Some((name, password))
  {
    assert EntryLine(name, password) == name + [':'] + password;
    SplitAtFirstOf(name, ':', password);
  }

  /**
   * Loading the file the saver wrote, on top of any starting table, lays
   * exactly the saved entries over it, whatever order they were written
   * in, provided no name holds a colon and no name or password holds a
   * line break.
   */
  lemma SaveLoadOver(base: UserDb, db: UserDb, order: seq<string>, nl: LineSeparator)
    requires ListsKeys(order, db)
    requires forall u :: u in db ==> ':' !in u && NoLineBreak(u) && NoLineBreak(db[u])
    ensures LoadLines(base, ReadLines(SaveUsers(db, order, nl))) == base + db
  {
    SaveUsersReadsBack(db, order, nl);
    LoadEntriesOver(base, db, order);
  }

  lemma LoadEntriesOver(base: UserDb, db: UserDb, order: seq<string>)
    requires ListsKeys(order, db)
    requires forall u :: u in db ==> ':' !in u
    ensures LoadLines(base, EntryLines(db, order)) == base + db
  {
    var r := LoadLines(base, EntryLines(db, order));
    LoadEntryLines(base, db, order);
    var want := base + db;
    assert forall u :: u in r <==> u in want;
    forall u | u in r
      ensures r[u] == want[u]
    {
      if u in order {
        assert u in db && want[u] == db[u];
      } else {
        assert u !in db && want[u] == base[u];
      }
    }
    assert r == want;
  }

  /** RobustChatServer: saving then loading gives back the same table. */
  lemma SaveLoadRoundTrip(db: UserDb, order: seq<string>, nl: LineSeparator)
    requires ListsKeys(order, db)
    requires forall u :: u in db ==> ':' !in u && NoLineBreak(u) && NoLineBreak(db[u])
    ensures LoadRobust(Some(SaveUsers(db, order, nl))) == db
  {
    var empty: UserDb := map[];
    SaveLoadOver(empty, db, order, nl);
    assert empty + db == db;
  }

  /** ChatServer reading a saved table ends with the saved entries laid over the three defaults. */
  lemma SaveLoadOverDefaults(db: UserDb, order: seq<string>, nl: LineSeparator)
    requires ListsKeys(order, db)
    requires forall u :: u in db ==> ':' !in u && NoLineBreak(u) && NoLineBreak(db[u])
    ensures LoadChat(Some(SaveUsers(db, order, nl))) == Defaults + db
  {
    SaveLoadOver(Defaults, db, order, nl);
  }
}

=== FILE: video_store.dfy ===
/**
 * RobustChatServer's `VideoStore`: the list of published videos, each kept
 * as the raw JSON object text the client sent, and its `video_list.json`
 * file. The file is a JSON array written by hand and read back by a
 * brace-counting splitter, not by a JSON parser.
 */
module VideoStore {
  import opened Wrappers
  import opened Strings
  import opened JsonScan

  type Videos = seq<string>

  /** `addVideo`: the new video goes to the end; the ones before it stay as they were. */
  function AddVideo(vs: Videos, video: string): (r: Videos)
    ensures |r| == |vs| + 1
    ensures r[..|vs|] == vs && r[|vs|] == video
  {
    vs + [video]
  }

  /** How one character moves the splitter's brace depth. */
  function Delta(c: char): int {
    if c == '{' then 1 else if c == '}' then -1 else 0
  }

  /** The brace depth after reading `s`: opening braces minus closing braces, wherever they appear. */
  function Depth(s: string): int {
    if s == [] then 0 else Depth(s[..|s| - 1]) + Delta(s[|s| - 1])
  }

  /**
   * A video text the splitter returns unchanged: it starts with `{`, ends
   * with `}`, and its brace depth first comes back to 0 at its last
   * character.
   */
  predicate WellFormed(v: string) {
    && |v| >= 2 && v[0] == '{' && v[|v| - 1] == '}'
    && Depth(v) == 0
    && forall k :: 1 <= k < |v| ==> Depth(v[..k]) > 0
  }

  /** What the splitter skips after each object: commas and `Character.isWhitespace` characters. */
  predicate IsSeparator(c: char) {
    c == ',' || IsJavaWhitespace(c)
  }

  function SkipSeparators(s: string): (r: string)
    ensures |r| <= |s| && r == s[|s| - |r|..]
    ensures r == [] || !IsSeparator(r[0])
    ensures forall k :: 0 <= k < |s| - |r| ==> IsSeparator(s[k])
  {
    if s != [] && IsSeparator(s[0]) then SkipSeparators(s[1..]) else s
  }

  /**
   * The splitting loop of `loadFromFile`: characters are collected into the
   * current video while the depth is tracked; when a `}` brings the depth
   * to 0 the trimmed text collected so far is one video, and the commas and
   * whitespace after it are skipped. Text after the last complete object is
   * dropped.
   */
  function Split(rest: string, depth: int, current: string): seq<string>
    decreases |rest|
  {
    if rest == [] then []
    else
      var c := rest[0];
      var d := depth + Delta(c);
      if d == 0 && c == '}' then [Trim(current + [c])] + Split(SkipSeparators(rest[1..]), 0, [])
      else Split(rest[1..], d, current + [c])
  }

  /**
   * The videos `loadFromFile` finds in the file's text: nothing when the
   * trimmed text is empty, is `[]`, or does not start with `[` and end with
   * `]`; otherwise the objects the splitter finds between the brackets.
   */
  function ParseArray(content: string): seq<string> {
    var t := Trim(content);
    if t == [] || t == "[]" then []
    else if |t| >= 2 && t[0] == '[' && t[|t| - 1] == ']' then
      var inner := Trim(t[1..|t| - 1]);
      if inner == [] then [] else Split(inner, 0, [])
    else []
  }

  /**
   * `loadFromFile`: the videos found are appended to the list; the list is
   * never cleared, and a missing file leaves it alone.
   */
  function LoadVideos(vs: Videos, file: Option<string>): (r: Videos)
    ensures |r| >= |vs| && r[..|vs|] == vs
    ensures file.None? ==> r == vs
  {
    match file
    case None => vs
    case Some(content) => vs + ParseArray(content)
  }

  /**
   * `saveToFile`: `[`, a line break, each video indented by two spaces and
   * separated by `,` and a line break, a line break, `]`. An empty list is
   * written as `[`, two line breaks, `]`.
   */
  function SaveVideos(vs: Videos): string {
    "[" + SavedInside(vs) + "]"
  }

  /** What `saveToFile` writes between the brackets. */
  function SavedInside(vs: Videos): string {
    if vs == [] then "\n\n" else "\n  " + JoinWith(",\n  ", vs) + "\n"
  }

  /** The array inside the `VIDEO_LIST` reply: the videos joined by commas, in list order. */
  function VideoArray(vs: Videos): string {
    "[" + JoinWith(",", vs) + "]"
  }

  /** The reply to `GET_VIDEOS`: `{"type":"VIDEO_LIST","videos":[v1,v2,...]}`. */
  function VideoListReply(vs: Videos): string {
    Object([Member("type", "VIDEO_LIST", true), Member("videos", VideoArray(vs), false)])
  }

  lemma DepthStep(v: string, k: nat)
    requires k < |v|
    ensures Depth(v[..k + 1]) == Depth(v[..k]) + Delta(v[k])
  {
    assert v[..k + 1][..k] == v[..k];
  }

  /** Reading one well-formed object, from any point inside it, yields exactly that object. */
  lemma {:induction false} SplitObjectFrom(v: string, k: nat, rest: string)
    requires WellFormed(v)
    requires k < |v|
    ensures Split(v[k..] + rest, Depth(v[..k]), v[..k]) == [v] + Split(SkipSeparators(rest), 0, [])
    decreases |v| - k
  {
    var s := v[k..] + rest;
    assert s[0] == v[k];
    assert s[1..] == v[k + 1..] + rest;
    DepthStep(v, k);
    assert v[..k] + [v[k]] == v[..k + 1];
    if k == |v| - 1 {
      assert v[..k + 1] == v;
      TrimPadded("", v, "");
      assert "" + v + "" == v;
      assert v[k + 1..] + rest == rest;
      assert Split(s, Depth(v[..k]), v[..k]) == [Trim(v)] + Split(SkipSeparators(rest), 0, []);
    } else {
      assert Depth(v[..k + 1]) > 0;
      assert Split(s, Depth(v[..k]), v[..k]) == Split(v[k + 1..] + rest, Depth(v[..k + 1]), v[..k + 1]);
      SplitObjectFrom(v, k + 1, rest);
    }
  }

  lemma SplitObject(v: string, rest: string)
    requires WellFormed(v)
    ensures Split(v + rest, 0, []) == [v] + Split(SkipSeparators(rest), 0, [])
  {
    SplitObjectFrom(v, 0, rest);
    assert v[0..] == v;
    assert v[..0] == [];
  }

  predicate AllSeparators(s: string) {
    forall k :: 0 <= k < |s| ==> IsSeparator(s[k])
  }

  lemma {:induction false} SkipSeparatorsPadded(sep: string, x: string)
    requires AllSeparators(sep)
    requires x == [] || !IsSeparator(x[0])
    ensures SkipSeparators(sep + x) == x
    decreases |sep|
  {
    if sep == [] {
      assert sep + x == x;
    } else {
      assert (sep + x)[1..] == sep[1..] + x;
      SkipSeparatorsPadded(sep[1..], x);
    }
  }

  lemma JoinEnds(sep: string, vs: seq<string>)
    requires vs != [] && forall i :: 0 <= i < |vs| ==> vs[i] != []
    ensures JoinWith(sep, vs) != []
    ensures JoinWith(sep, vs)[0] == vs[0][0]
    ensures JoinWith(sep, vs)[|JoinWith(sep, vs)| - 1] == vs[|vs| - 1][|vs[|vs| - 1]| - 1]
  {
    if |vs| > 1 {
      JoinEnds(sep, vs[1..]);
    }
  }

  /** The splitter takes a list of well-formed videos joined by separator text back apart into the same list. */
  lemma {:induction false} SplitJoined(sep: string, vs: seq<string>)
    requires AllSeparators(sep)
    requires forall i :: 0 <= i < |vs| ==> WellFormed(vs[i])
    ensures Split(JoinWith(sep, vs), 0, []) == vs
  {
    if |vs| == 1 {
      SplitObject(vs[0], "");
      assert vs[0] + "" == vs[0];
    } else if |vs| > 1 {
      var tail := JoinWith(sep, vs[1..]);
      JoinEnds(sep, vs[1..]);
      JoinCons(sep, vs[0], vs[1..]);
      assert [vs[0]] + vs[1..] == vs;
      Assoc(vs[0], sep, tail);
      SplitObject(vs[0], sep + tail);
      SkipSeparatorsPadded(sep, tail);
      SplitJoined(sep, vs[1..]);
    }
  }

  /** Bracketed text is read as whatever the splitter finds in its trimmed inside. */
  lemma ParseBracketed(b: string)
    ensures ParseArray("[" + b + "]") == if Trim(b) == [] then [] else Split(Trim(b), 0, [])
  {
    var t := "[" + b + "]";
    assert IsTrimmed(t);
    TrimPadded("", t, "");
    assert "" + t + "" == t;
    assert Trim(t) == t;
    assert t[1..|t| - 1] == b;
  }

  lemma EmptySaveParses()
    ensures ParseArray(SaveVideos([])) == []
  {
    ParseBracketed(SavedInside([]));
    assert AllTrimmable(SavedInside([]));
  }

  lemma SaveParses(vs: Videos)
    requires vs != []
    requires forall i :: 0 <= i < |vs| ==> WellFormed(vs[i])
    ensures ParseArray(SaveVideos(vs)) == vs
  {
    ParseBracketed(SavedInside(vs));
    SavedInsideTrim(vs);
    assert AllSeparators(",\n  ");
    SplitJoined(",\n  ", vs);
  }

  /** Trimming what `saveToFile` writes between the brackets leaves the videos joined by `,`, a line break and two spaces. */
  lemma SavedInsideTrim(vs: Videos)
    requires vs != []
    requires forall i :: 0 <= i < |vs| ==> WellFormed(vs[i])
    ensures Trim(SavedInside(vs)) == JoinWith(",\n  ", vs) != []
  {
    var j := JoinWith(",\n  ", vs);
    JoinedIsTrimmed(",\n  ", vs);
    TrimIndented(j);
  }

  /** Trimming a line break and two spaces before a trimmed core and a line break after it leaves the core. */
  lemma TrimIndented(j: string)
    requires IsTrimmed(j)
    ensures Trim("\n  " + j + "\n") == j
  {
    assert AllTrimmable("\n  ") && AllTrimmable("\n");
    TrimPadded("\n  ", j, "\n");
  }

  /**
   * The file `saveToFile` writes, read back by `loadFromFile`, appends
   * exactly the saved videos, in order, to whatever the list already
   * holds, provided each video is well formed.
   */
  lemma SaveLoadRoundTrip(existing: Videos, vs: Videos)
    requires forall i :: 0 <= i < |vs| ==> WellFormed(vs[i])
    ensures LoadVideos(existing, Some(SaveVideos(vs))) == existing + vs
  {
    if vs == [] {
      EmptySaveParses();
    } else {
      SaveParses(vs);
    }
  }

  /** The `videos` array of a `VIDEO_LIST` reply, read with the store's own splitter, lists the videos in store order. */
  lemma VideoArrayReadsBack(vs: Videos)
    requires forall i :: 0 <= i < |vs| ==> WellFormed(vs[i])
    ensures ParseArray(VideoArray(vs)) == vs
  {
    var j := JoinWith(",", vs);
    ParseBracketed(j);
    if vs != [] {
      JoinedIsTrimmed(",", vs);
      assert AllSeparators(",");
      SplitJoined(",", vs);
    }
  }

  /** Well-formed videos joined by anything start with `{` and end with `}`, so trimming leaves them alone. */
  lemma JoinedIsTrimmed(sep: string, vs: Videos)
    requires vs != [] && forall i :: 0 <= i < |vs| ==> WellFormed(vs[i])
    ensures Trim(JoinWith(sep, vs)) == JoinWith(sep, vs) != []
  {
    var j := JoinWith(sep, vs);
    JoinEnds(sep, vs);
    assert WellFormed(vs[0]) && WellFormed(vs[|vs| - 1]);
    assert j[0] == '{' && j[|j| - 1] == '}';
    assert !IsTrimmable(j[0]) && !IsTrimmable(j[|j| - 1]);
    assert IsTrimmed(j);
    TrimPadded("", j, "");
    assert "" + j + "" == j;
  }

  /** Content that is blank, is `[]`, or is not wrapped in brackets adds no video. */
  lemma NothingToLoad(vs: Videos, content: string)
    requires var t := Trim(content); t == [] || t == "[]" || t[0] != '[' || t[|t| - 1] != ']'
    ensures LoadVideos(vs, Some(content)) == vs
  {
  }

  /** The `type` of the `VIDEO_LIST` reply reads back with the servers' own `extractValue`. */
  lemma VideoListReplyType(vs: Videos)
    ensures ExtractValue(VideoListReply(vs), "type") == "VIDEO_LIST"
  {
    var ms := [Member("type", "VIDEO_LIST", true), Member("videos", VideoArray(vs), false)];
    assert Readable(ms[0]);
    ObjectField(ms, 0);
  }
}

=== FILE: wrappers.dfy ===
/** The optional value used wherever the Java code returns or stores `null`. */
module Wrappers {

  datatype Option<+T> = None | Some(value: T)
}
